=== FILE: README.md ===
# Key-custody ledger — a Dafny model

The mobile client keeps a small ledger of who holds which room key. It stores three JSON
lists on the device: `pessoas` (people), `chaves` (keys) and `emprestimos` (loans). The
screens run plain, sequential list logic over them:

- lend a key (`NovoEmprestimo`) and return it (`DevolverChave`);
- the report (`Relatorio`) and the history (`Historico`);
- creating and editing people and keys (`NovaPessoa`, `EditarPessoa`, `NovaChave`,
  `EditarChave`);
- the access-profile editor and list (`EditarPerfil`, `ListaPerfis`);
- the people, key and incident lists (`ListaPessoas`, `ListaChaves`, `ListaOcorrencias`);
- the password-change check (`AlterarSenha`).

The model has one Dafny module per screen. Each one is a set of pure functions: every
operation takes the lists it reads and returns the list it writes, or an error value
where the screen shows an alert and writes nothing. Shared modules:

- `Wrappers`: `Option` and `Result`.
- `Seqs`: filter, map, subsequence, distinctness, toggle.
- `Sorting`: a stable insertion sort under a total preorder.
- `Text`: the JavaScript string operations the screens use.
- `Records`: the record types and the one-open-loan-per-key invariant.
- `Labels`: the name labels.
- `ProfileSelection`: the profile checklist shared by the two key screens.

The central property is that at most one open loan (`devolvido == false`) exists per key.
Registration appends a loan without re-checking, so this holds only because the loan
screen offers only keys with no open loan. `NovoEmprestimo.RegisterOfferedKeepsOneOpen`
proves it under that precondition. `NovoEmprestimo.RegisterDoesNotRecheck` shows that
without the precondition the invariant breaks.

JavaScript behaviour the screens rely on is written out:

- `ativo !== false` is `Records.IsActive`. An absent flag counts as active.
- `toLowerCase` is ASCII lower-casing (`Text.LowerStr`).
- `trim` strips the ECMAScript white-space and line-terminator characters (`Text.Trim`).
- `includes` is substring occurrence (`Text.Contains`).
- `localeCompare` is lexicographic order on code points (`Text.StrLe`).
- `Object.keys` of the grouping object gives first-insertion order. `Date.now()` ids are
  never array-index-like property names, so this holds here.
- Instants are integers in milliseconds. A local day is a fixed-offset day of 86 400 000 ms.

## Model

| member | source | states |
|---|---|---|
| Records.OpenLoans | screens/DevolverChave.tsx:18 | the pending list holds exactly the stored loans not marked returned, in stored order |
| Records.LentKeyIds | screens/Relatorio.tsx:38-39 | a key id is in the list iff some open loan names it |
| Records.FindPerson | screens/Relatorio.tsx:43 | `find` by id: nothing iff no stored person carries the id, otherwise a stored person with that id |
| Records.FindKey | screens/Relatorio.tsx:50 | `find` by id: nothing iff no stored key carries the id, otherwise a stored key with that id |
| Labels.PersonLabel | screens/Relatorio.tsx:42-47 | an unknown id shows 'Desconhecido'; otherwise the first matching person's name, with ' (Inativo)' iff its flag is explicitly false |
| Labels.KeyLabel | screens/Relatorio.tsx:49-54 | an unknown id shows 'Desconhecida'; otherwise the first matching key's name, with ' (Inativa)' iff its flag is explicitly false |
| Labels.PlainPersonName | screens/DevolverChave.tsx:43 | the first stored person with the id shows its name when non-empty, otherwise 'Desconhecido'; an unknown id shows 'Desconhecido'; never empty |
| Labels.PlainKeyName | screens/DevolverChave.tsx:44 | the first stored key with the id shows its name when non-empty, otherwise 'Desconhecida'; an unknown id shows 'Desconhecida'; never empty |
| NovoEmprestimo.SelectablePeople | screens/NovoEmprestimo.tsx:45 | people offered are exactly those not explicitly deactivated (absent flag counts as active), in stored order |
| NovoEmprestimo.LoadedKeys | screens/NovoEmprestimo.tsx:46 | keys loaded are exactly those not explicitly deactivated, in stored order |
| NovoEmprestimo.OfferedKeys | screens/NovoEmprestimo.tsx:91-101 | a key is offered iff it is stored, active, named by no open loan, and its profile list is absent, empty or contains the person's profile |
| NovoEmprestimo.SelectPerson | screens/NovoEmprestimo.tsx:73-77 | choosing a person sets that person and clears the chosen key |
| NovoEmprestimo.SelectKey | screens/NovoEmprestimo.tsx:79-82 | choosing a key keeps the chosen person |
| NovoEmprestimo.OpenKeyPicker | screens/NovoEmprestimo.tsx:85-104 | the picker is refused iff no person is chosen; otherwise it lists only stored, active keys |
| NovoEmprestimo.FilterPeopleModal | screens/NovoEmprestimo.tsx:58-63 | a person stays iff the lower-cased term occurs in the lower-cased name or document (absent = ""); an empty term keeps the list |
| NovoEmprestimo.FilterKeysModal | screens/NovoEmprestimo.tsx:58-63 | a key stays iff the lower-cased term occurs in its lower-cased name; an empty term keeps the list |
| NovoEmprestimo.Register | screens/NovoEmprestimo.tsx:107-122 | without both selections nothing is written; otherwise exactly one open loan for the chosen person and key is appended and earlier loans are unchanged |
| NovoEmprestimo.RegisterOfferedKeepsOneOpen | screens/NovoEmprestimo.tsx:91-122 | registering a key taken from the offered list succeeds and keeps at most one open loan per key |
| NovoEmprestimo.PickedKeyKeepsOneOpen | screens/NovoEmprestimo.tsx:58-122 | the whole flow (choose person, open picker, search, choose key, register) keeps at most one open loan per key |
| NovoEmprestimo.RegisterDoesNotRecheck | screens/NovoEmprestimo.tsx:113-122 | registration itself does not check: a key with an open loan gets a second one and the invariant breaks |
| DevolverChave.ReturnLoan | screens/DevolverChave.tsx:33-38 | the loans with the id become returned at the given instant, keeping person, key and date; every other loan, the length and the order are unchanged |
| DevolverChave.ReturnedLoanNotPending | screens/DevolverChave.tsx:18-37 | after a return no pending loan carries that id |
| DevolverChave.ReturnUnknownIdUnchanged | screens/DevolverChave.tsx:35-37 | returning an id no loan carries writes back the same list |
| DevolverChave.ReturnKeepsOneOpen | screens/DevolverChave.tsx:35-37 | returns preserve the one-open-loan-per-key invariant |
| DevolverChave.ReturnReoffersKey | screens/DevolverChave.tsx:33-38 | returning the open loan of an active key makes the loan screen offer that key again to anyone its profile list admits |
| DevolverChave.SearchPending | screens/DevolverChave.tsx:47-56 | a pending loan stays iff the lower-cased term occurs in its key or person name; an empty term keeps all; the result keeps the pending order |
| Relatorio.AvailableKeys | screens/Relatorio.tsx:39-40 | a key is available iff it is stored and no open loan names it; inactive keys are not excluded |
| Relatorio.KeysPartition | screens/Relatorio.tsx:39-40 | every stored key is either available or lent, never both |
| Relatorio.OpenLoansNameDistinctKeys | screens/Relatorio.tsx:38 | under the invariant, the open loans name pairwise different keys |
| Relatorio.LentKeyIdsDistinct | screens/Relatorio.tsx:38-39 | under the invariant, the lent key ids have no repeats |
| Relatorio.CountersAddUp | screens/Relatorio.tsx:63-73 | with the invariant, unique key ids and no open loan for an unstored key, 'Disponíveis' plus 'Emprestadas' equals the number of keys |
| Relatorio.CountersDisagreeWithTwoOpenLoans | screens/Relatorio.tsx:63-73 | two open loans of one key make the counters sum to more than the number of keys |
| Relatorio.CountersDisagreeWithDanglingLoan | screens/Relatorio.tsx:63-73 | an open loan of an unstored key makes the counters sum to more than the number of keys |
| Historico.NewestFirst | screens/Historico.tsx:98 | the loaded history is a permutation of the stored loans, newest withdrawal first |
| Historico.SearchRecent | screens/Historico.tsx:123-130 | 'recentes': an empty term keeps the history; otherwise a loan stays iff its person or key label contains the term case-insensitively; the order is kept |
| Historico.GroupKeys | screens/Historico.tsx:131-137 | the section ids are distinct and are exactly the person (or key) ids occurring in the history |
| Historico.MakeSections | screens/Historico.tsx:131-139 | one section per grouping id, titled with that id's person label ('porPessoa') or key label ('porChave'), holding that id's loans |
| Historico.SectionsCoverHistory | screens/Historico.tsx:131-139 | every loan of the history lies in some section |
| Historico.SectionsAreDisjoint | screens/Historico.tsx:131-139 | no loan lies in two different sections |
| Historico.GroupOfIsOrderedGroup | screens/Historico.tsx:131-136 | the group of an occurring id is non-empty, keeps history order and holds only loans with that id |
| Historico.SectionsAreOrderedGroups | screens/Historico.tsx:131-139 | each section is non-empty, keeps history order, and its loans share the grouping id |
| Historico.SortSections | screens/Historico.tsx:140 | the sections are permuted into ascending title order |
| Historico.SearchSections | screens/Historico.tsx:141-142 | grouped search keeps or drops whole sections by a case-insensitive title match; sections are never split and title order is kept |
| Historico.Process | screens/Historico.tsx:122-143 | 'recentes' shows, in history order, exactly the loans whose labels contain the term; a grouped mode shows each section whose title contains the term exactly as often as it was built (once), in ascending title order; an empty term matches everything |
| Historico.GroupedViewIsPartition | screens/Historico.tsx:131-141 | with no search, a grouped view puts every loan in exactly one non-empty, order-keeping section, with titles ascending |
| Historico.ExportAllowedIffSomethingMatches | screens/Historico.tsx:122-150 | export is allowed iff some loan of the history matches the search (by its labels in 'recentes', by its section title when grouped); with an empty term, iff the history is not empty |
| Historico.RecentViewNonEmptyIff | screens/Historico.tsx:124-130 | the 'recentes' list is non-empty iff some loan's person or key label contains the term |
| Historico.GroupedViewNonEmptyIff | screens/Historico.tsx:131-142 | a grouped list is non-empty iff some loan lies under a section title containing the term |
| Historico.MatchingLoanIsShown | screens/Historico.tsx:131-142 | a loan whose section title contains the term is shown inside a shown section |
| Historico.ShownLoansMatch | screens/Historico.tsx:131-142 | a shown section is non-empty and holds only loans of the history whose section title contains the term |
| Historico.SectionLoansMatch | screens/Historico.tsx:131-142 | a built section whose title contains the term is non-empty and holds only loans of the history whose section title contains it |
| Historico.CanExport | screens/Historico.tsx:146-149 | export goes ahead iff the processed list has an entry; `ExportAllowedIffSomethingMatches` says when that is |
| Historico.ReturnShown | screens/Historico.tsx:21 | a return date is shown iff the loan is marked returned and has a date, and it is that date; otherwise the export cell reads 'Em andamento' (also the grouped export cell at screens/Historico.tsx:36), and the history cards (screens/Historico.tsx:173 and :190) show no 'Devolução' line at all, so a pending loan never shows one |
| Historico.ReturnedLoanShowsReturnDate | screens/Historico.tsx:21 | after a return the history shows the return instant for that loan, and every pending loan shows 'Em andamento' |
| NovaPessoa.DocKey | screens/NovaPessoa.tsx:76 | a stored person takes part in the duplicate check iff its document is present and non-empty |
| NovaPessoa.Save | screens/NovaPessoa.tsx:62-97 | rejected iff a required field is blank or missing; else rejected as a duplicate iff a stored document equals the new one after trim and lower-casing; else one active person with trimmed name and document is appended |
| NovaPessoa.NewPersonKey | screens/NovaPessoa.tsx:72-90 | the new person's document compares by the same trimmed, lower-cased key the check uses |
| NovaPessoa.SaveKeepsDocumentsUnique | screens/NovaPessoa.tsx:71-97 | if stored documents are pairwise distinct under trim and lower-casing, they stay so after a successful save |
| NovaPessoa.UndocumentedNeverDuplicate | screens/NovaPessoa.tsx:75-77 | stored people without a document never cause a rejection |
| NovaPessoa.SavedPersonIsSelectable | screens/NovaPessoa.tsx:87-97 | a newly saved person is offered on the loan screen |
| EditarPessoa.Load | screens/EditarPessoa.tsx:51-67 | no id or no match leaves the empty form; otherwise the first match's fields, absent phone as "" and absent flag as active |
| EditarPessoa.Save | screens/EditarPessoa.tsx:85-98 | rejected iff name or document is blank, the document is undefined, or profile or photo is missing; else only records with the id take the form's fields, untrimmed; length and others unchanged |
| EditarPessoa.ToggleActive | screens/EditarPessoa.tsx:103-115 | the form flag flips; only the matching records' flag changes, and no record is removed |
| EditarPessoa.LoadThenToggleFlipsActive | screens/EditarPessoa.tsx:51-115 | loading a person and confirming the toggle flips that person's active status |
| EditarPessoa.ToggleTwiceRestoresActive | screens/EditarPessoa.tsx:103-115 | toggling twice restores every record's active status |
| EditarPessoa.LoadThenSaveKeepsRecord | screens/EditarPessoa.tsx:51-98 | saving an unchanged loaded form keeps the person's identifying fields |
| EditarPessoa.EditCanDuplicateDocument | screens/EditarPessoa.tsx:90-98 | an edit may copy another person's document, so the uniqueness kept by the create screen is lost |
| Seqs.ToggleTwiceRestoresMembership | screens/NovaChave.tsx:27-33 | toggling the same item twice restores membership |
| ProfileSelection.ToggleProfile | screens/NovaChave.tsx:27-33 | a present profile is removed and nothing else changes; an absent one is appended |
| ProfileSelection.SelectAll | screens/NovaChave.tsx:35-41 | the result is either no profile or all five in canonical order |
| ProfileSelection.ApplyKeepsWellFormed | screens/NovaChave.tsx:25-41 | any sequence of taps on the five profiles keeps the selection duplicate-free and within the five |
| ProfileSelection.FullLengthIffAllSelected | screens/NovaChave.tsx:35-41 | on a well-formed selection, "length is five" means exactly "all selected" |
| ProfileSelection.SelectAllSwitches | screens/EditarChave.tsx:52-58 | select-all clears a full selection and otherwise selects all, staying well-formed |
| NovaChave.Save | screens/NovaChave.tsx:43-62 | a blank name is rejected first, then an empty profile list; otherwise one active key with the chosen profiles is appended and earlier keys are unchanged |
| NovaChave.SavedKeyIsRestricted | screens/NovaChave.tsx:48-57 | a saved key's profile list is non-empty, so it admits exactly the listed profiles |
| NovaChave.SavedKeyIsOffered | screens/NovaChave.tsx:53-62 | a newly saved key is offered to a person whose profile it lists |
| NovaChave.SavedProfilesWellFormed | screens/NovaChave.tsx:25-62 | a key saved from checklist taps stores a duplicate-free subset of the five profiles |
| EditarChave.Load | screens/EditarChave.tsx:30-42 | no match leaves the empty form; otherwise the first match, absent description as "", absent profiles as none, absent flag as active |
| EditarChave.Save | screens/EditarChave.tsx:60-72 | rejected iff the name is blank or no profile is chosen; else only keys with the id take the form's fields; length and others unchanged |
| EditarChave.ToggleActive | screens/EditarChave.tsx:77-88 | the form flag flips; only the matching keys' flag changes, and no key is removed |
| EditarChave.SavedKeyIsRestricted | screens/EditarChave.tsx:61-71 | after a save the key's profile list is non-empty, so the open-to-all fallback no longer applies |
| EditarChave.DeactivatedKeyNotOffered | screens/EditarChave.tsx:86-88 | after deactivating a key, the loan screen never offers it |
| EditarChave.LoadThenSaveKeepsKey | screens/EditarChave.tsx:30-72 | saving an unchanged loaded form of a valid key keeps its name and profiles |
| EditarPerfil.DayNumber | screens/EditarPerfil.tsx:9-11 | a day name maps to a number in 0..6 |
| EditarPerfil.DayName | screens/EditarPerfil.tsx:12-14 | a number has a day name iff it lies in 0..6 |
| EditarPerfil.DayMapsInverse | screens/EditarPerfil.tsx:9-14 | the two maps are mutually inverse on the seven days |
| EditarPerfil.EntryName | screens/EditarPerfil.tsx:34 | a stored day entry yields only names that map back to a number |
| EditarPerfil.LoadDays | screens/EditarPerfil.tsx:33-35 | loading maps each stored entry that has a name to that name, one for one and in order, repeats kept, dropping the entries without one |
| EditarPerfil.Load | screens/EditarPerfil.tsx:28-35 | the form takes the name, each set time as stored and an absent or empty time as "", and exactly the named stored days |
| EditarPerfil.ToggleDay | screens/EditarPerfil.tsx:41-45 | a present day is removed and nothing else changes; an absent one is appended |
| EditarPerfil.OrNull | screens/EditarPerfil.tsx:71-72 | "" becomes null; any other text is kept |
| EditarPerfil.Save | screens/EditarPerfil.tsx:59-74 | rejected iff the name is blank; else the payload has the trimmed name, empty times as null, each day's number in order, and no days as null |
| EditarPerfil.FormDaysHaveNumbers | screens/EditarPerfil.tsx:33-67 | days loaded and then toggled from the seven names always have numbers, so no null reaches the payload |
| EditarPerfil.ToggledDaysKeepNumbers | screens/EditarPerfil.tsx:41-45 | toggling only day names keeps every selected day numbered |
| EditarPerfil.LoadDaysRoundTrip | screens/EditarPerfil.tsx:33-67 | stored numbers in 0..6 load to names that map back to the same numbers, one for one |
| EditarPerfil.SavedDaysLoadBack | screens/EditarPerfil.tsx:33-67 | the numbers saved for a selection of day names load back as exactly those names, in the same order and with the same repeats |
| EditarPerfil.LoadThenSaveRoundTrip | screens/EditarPerfil.tsx:28-74 | loading and saving without changes sends the same day numbers back |
| ListaPerfis.TimeLabel | screens/ListaPerfis.tsx:68 | 'inicio - fim' when both times are set, otherwise 'Acesso 24h' |
| ListaPerfis.SelectedDays | screens/ListaPerfis.tsx:70 | the listed days are exactly the week days whose name is stored, each once, in Sunday-first order |
| ListaPerfis.DaysLabel | screens/ListaPerfis.tsx:69-71 | absent or empty days show 'Todos os dias' |
| ListaPerfis.DaysLabelIgnoresOrderAndRepeats | screens/ListaPerfis.tsx:70 | the days label does not depend on the order or repetition of the stored days |
| ListaPerfis.SelectedDaysInWeekOrder | screens/ListaPerfis.tsx:13-70 | the listed days appear in strictly increasing week position |
| ListaPerfis.NumericDaysShowEmptyLabel | screens/ListaPerfis.tsx:69-71 | a non-empty list of day numbers, as the edit screen saves it, shows an empty label |
| ListaPerfis.NamedDayIsOrdered | screens/ListaPerfis.tsx:13 | every day name of the edit screen is in the list's week order |
| ListaPerfis.SelectedDaysFixed | screens/ListaPerfis.tsx:69-71 | the days listed are exactly the week days some stored entry denotes, each once, in week order |
| ListaPerfis.DaysLabelFixed | screens/ListaPerfis.tsx:69-71 | absent or empty days show 'Todos os dias'; a list holding some readable day shows a non-empty label other than 'Todos os dias' |
| ListaPerfis.AbbrevLabelNamesADay | screens/ListaPerfis.tsx:9-70 | the joined abbreviations of at least one week day are neither empty nor 'Todos os dias' |
| ListaPerfis.AbbrevDiffersFromEveryDay | screens/ListaPerfis.tsx:9-12 | each week-day abbreviation has three letters and does not begin like 'Todos os dias' |
| ListaPerfis.FixedLabelMatchesEditScreen | screens/ListaPerfis.tsx:69-71 | the corrected label lists exactly the days the edit screen loads |
| ListaPerfis.SavedDaysShownWhenFixed | screens/ListaPerfis.tsx:69-71 | the days saved by the edit screen are shown by the corrected label, while the label as written is empty |
| ListaPerfis.DaysLabelFixedIgnoresOrderAndRepeats | screens/ListaPerfis.tsx:69-71 | the corrected label does not depend on the order or repetition of the stored days |
| ListaPerfis.LastStored | screens/ListaPerfis.tsx:27-29 | no record is found iff no focus read one |
| ListaPerfis.LastStoredIsLast | screens/ListaPerfis.tsx:27-29 | the record found was read at a focus after which no record was read |
| ListaPerfis.LastStoredAt | screens/ListaPerfis.tsx:27-29 | a record read at a focus after which no record was read is the one found |
| ListaPerfis.GroupIsLastStored | screens/ListaPerfis.tsx:19-29 | the held group is the `grupo` of the last record read on focus; a focus that finds nothing keeps the previous group |
| ListaPerfis.CanManage | screens/ListaPerfis.tsx:81-108 | the edit, delete and add controls show only for the groups 'admin' and 'fiscal'; `ControlsFollowLastOperator` ties this to the stored operator |
| ListaPerfis.GroupAfterFocus | screens/ListaPerfis.tsx:27-29 | one focus: a stored record sets the group to its `grupo`, and nothing stored keeps the previous group; `GroupIsLastStored` states the effect of many |
| ListaPerfis.GroupAfterFocuses | screens/ListaPerfis.tsx:19-29 | the group of the mounted screen after successive focuses, from `null`; `GroupIsLastStored` shows it is the last read record's `grupo` |
| ListaPerfis.ControlsFollowLastOperator | screens/ListaPerfis.tsx:19-108 | the edit, delete and add controls show iff the last record read has group 'admin' or 'fiscal'; with no record ever read they are hidden |
| ListaPerfis.ControlsOutliveLogout | screens/ListaPerfis.tsx:27-81 | an 'admin' group read earlier keeps the controls visible after the record is removed |
| ListaOcorrencias.Shape | screens/ListaOcorrencias.tsx:44-47 | the place is null iff its id is absent or 0; otherwise it carries the id and name |
| ListaOcorrencias.StartOfDay | screens/ListaOcorrencias.tsx:110-113 | the start of the instant's local day: at or before it, less than a day earlier, same day |
| ListaOcorrencias.EndOfDay | screens/ListaOcorrencias.tsx:117-120 | the last millisecond of the instant's local day: at or after it, less than a day later, same day |
| ListaOcorrencias.StartFilterByDay | screens/ListaOcorrencias.tsx:109-114 | passing the start filter means falling on the start day or later |
| ListaOcorrencias.EndFilterByDay | screens/ListaOcorrencias.tsx:116-121 | passing the end filter means falling on the end day or earlier |
| ListaOcorrencias.ByText | screens/ListaOcorrencias.tsx:99-107 | with a query, an incident stays iff the query occurs case-insensitively in its description, its registrar or its place name (absent = ""); order is kept |
| ListaOcorrencias.ByStart | screens/ListaOcorrencias.tsx:109-114 | with a start date, an incident stays iff it falls on that day or later; order is kept |
| ListaOcorrencias.ByEnd | screens/ListaOcorrencias.tsx:116-121 | with an end date, an incident stays iff it falls on that day or earlier; order is kept |
| ListaOcorrencias.Apply | screens/ListaOcorrencias.tsx:96-124 | an incident is shown iff it passes every filter that is set; the result keeps the input order |
| ListaOcorrencias.ClearedShowsAll | screens/ListaOcorrencias.tsx:89-124 | after clearing the filters the full list is shown in order |
| ListaPessoas.SortByName | screens/ListaPessoas.tsx:13 | the loaded list is a permutation of the stored people in ascending name order |
| ListaPessoas.Search | screens/ListaPessoas.tsx:19-34 | an empty term keeps the list; otherwise a person stays iff the term occurs case-insensitively in the name or document (absent = ""); order is kept |
| ListaPessoas.SearchKeepsNameOrder | screens/ListaPessoas.tsx:13-34 | the search result stays sorted by name |
| ListaPessoas.ShowsInactive | screens/ListaPessoas.tsx:43 | '(INATIVO)' shows unless the flag is stored as true; `MarkerDisagreesOnlyWithoutFlag` compares it with the active rule |
| ListaPessoas.MarkerDisagreesOnlyWithoutFlag | screens/ListaPessoas.tsx:43 | '(INATIVO)' agrees with the active rule used elsewhere exactly when the flag is stored; a person without the flag is marked inactive yet counts as active |
| ListaChaves.SortByName | screens/ListaChaves.tsx:16 | the loaded list is a permutation of the stored keys in ascending name order |
| ListaChaves.Search | screens/ListaChaves.tsx:22-25 | an empty term keeps the list; otherwise a key stays iff the term occurs case-insensitively in its name; order is kept |
| ListaChaves.SearchKeepsNameOrder | screens/ListaChaves.tsx:16-25 | the search result stays sorted by name |
| ListaChaves.DescriptionNotSearched | screens/ListaChaves.tsx:24 | changing a key's description never changes whether it is found |
| ListaChaves.ShowsInactive | screens/ListaChaves.tsx:35 | '(INATIVA)' shows exactly when the flag is stored as false; `MarkerAgreesWithActive` compares it with the active rule |
| ListaChaves.MarkerAgreesWithActive | screens/ListaChaves.tsx:35 | '(INATIVA)' shows iff the key is not active under the rule used elsewhere |
| AlterarSenha.Validate | screens/AlterarSenha.tsx:17-29 | an empty field is reported first, then a mismatch, then a length under 6; the password is accepted iff both fields are equal and at least 6 long |

## Left out

- The server rules: access windows, per-person exceptions and batch checkout. Only endpoint
  URLs exist for them (services/apiService.tsx is not part of this model), so no behaviour is
  invented.
- Login, navigation, the home screen, incident detail and creation, places, settings and
  backup. These are network, camera or file-system I/O, or display only.
- AsyncStorage is not modelled. Each list is passed in and returned, and the JSON
  encoding is not modelled.
- Concurrent writers and the read-modify-write races between screens are not modelled.
  - Consequence for the loan screen: the picker's list is computed when the screen gains
    focus, while registration re-reads storage. The invariant lemma assumes that both
    reads see the same list.
- Alert and confirmation dialogs: only the confirmed branch is modelled. Success alerts and
  navigation are not modelled.
- `Date.now()` ids and timestamps are parameters (`newId`, `now`). Whether the id is fresh is
  left to the caller, as in the screens.
- Stored ISO date strings are integer instants, with their parsing left out.
- HTML/PDF export (`gerarConteudoHtml`) and `toLocaleString`/`toTimeString` formatting are
  not modelled. Of export, only the empty-result guard (`Historico.CanExport`) and the
  condition for the return-date cell (`Historico.ReturnShown`) are kept.
- Unicode is simplified:
  - `toLowerCase` is ASCII-only.
  - `localeCompare` is code-point order, not a locale collation.
  - String lengths count characters, not UTF-16 code units.
- Local days have a fixed UTC offset (`tz`); daylight-saving transitions are not modelled.
- Historico.NewestFirst, Historico.SortSections, ListaPessoas.SortByName,
  ListaChaves.SortByName: the sort is stable, but the contracts state only order and
  permutation. The order among equal dates, equal titles (two 'Desconhecido' sections, two
  people with one name) or equal names is therefore left open.
- EditarPerfil.EntryName: `diasMapInverso[x]` on an inherited object property (such as
  `"constructor"`) would be truthy in JavaScript. The model reads only the seven own keys.
- Records whose fields have the wrong JSON type (for example a numeric `nome`, which would
  make `toLowerCase` throw) are not modelled. Each field has its declared type or is absent.
- The profile list and incident list fetches, the profile update request and its 403/error
  handling are left out; `EditarPerfil.Save` stops at the payload.
- ListaPerfis.DaysLabel: its contract states only the 'Todos os dias' case. The days it
  lists are stated by `ListaPerfis.SelectedDays` and the lemmas about it. `Text.Join` is
  stated only for zero and one element and by its first element being a prefix.
- ListaPerfis.DaysLabelFixed: states the 'Todos os dias' case and that a readable day gives
  a non-empty label other than it, but not the label's exact text. The days it lists are
  stated by `ListaPerfis.SelectedDaysFixed` and `ListaPerfis.FixedLabelMatchesEditScreen`.
- NovoEmprestimo.SelectPerson, NovoEmprestimo.SelectKey: the picker chooses the tap handler
  by the item's shape (`'foto' in item`, screens/NovoEmprestimo.tsx:130), not by which
  picker is open; the model dispatches by the picker. `Person.foto` does not tell an absent
  property from null. A stored person with no `foto` property, tapped in the people picker,
  would become the chosen key. Both person screens refuse to save without a photo
  (screens/NovaPessoa.tsx:64, screens/EditarPessoa.tsx:86), so only records written
  elsewhere can lack it.
- ListaPerfis.GroupAfterFocus: a stored 'operador' string that is not JSON makes the read
  throw; the error alert is not modelled. The record is given already parsed.
- EditarPessoa.Load: a missing route parameter is modelled as the empty id.

## Findings

| source | as written | input that shows it | evidently intended | confidence | as-written member | corrected member |
|---|---|---|---|---|---|---|
| screens/ListaPerfis.tsx:70 | the day label keeps the week-day names that occur in `dias_semana`, but the edit screen saves `dias_semana` as numbers (screens/EditarPerfil.tsx:67,73) | a profile saved with Monday and Wednesday stores `[1, 3]`; its label is the empty string | list the abbreviations of the days the numbers denote: 'Seg, Qua' | high that the label is empty for numeric days; not executed | ListaPerfis.NumericDaysShowEmptyLabel | ListaPerfis.FixedLabelMatchesEditScreen |

=== FILE: alterar_senha.dfy ===
/** The password change screen's validation chain, checked before anything is sent. */
module AlterarSenha {
  import opened Wrappers

  /** The shortest accepted password. */
  const MinLength: nat := 6

  /** The alerts, in the order the checks run. */
  datatype PasswordError = FieldsRequired | Mismatch | TooShort

  /** `handleSalvar`'s checks: both fields filled, then equal, then long enough. The
      accepted password is the one that would be sent. */
  function Validate(novaSenha: string, confirmarSenha: string): (r: Result<string, PasswordError>)
    ensures r == Failure(FieldsRequired) <==> novaSenha == "" || confirmarSenha == ""
    ensures r == Failure(Mismatch) <==> novaSenha != "" && confirmarSenha != "" && novaSenha != confirmarSenha
    ensures r == Failure(TooShort) <==> novaSenha != "" && novaSenha == confirmarSenha && |novaSenha| < MinLength
    ensures r.Success? <==> novaSenha == confirmarSenha && |novaSenha| >= MinLength
    ensures r.Success? ==> r.value == novaSenha
  {
    if novaSenha == "" || confirmarSenha == "" then Failure(FieldsRequired)
    else if novaSenha != confirmarSenha then Failure(Mismatch)
    else if |novaSenha| < MinLength then Failure(TooShort)
    else Success(novaSenha)
  }
}

=== FILE: devolver_chave.dfy ===
/** The return screen: the pending loans, returning one by id, and the pending-list search. */
module DevolverChave {
  import opened Wrappers
  import opened Seqs
  import opened Text
  import opened Records
  import opened Labels
  import NovoEmprestimo

  /** The loan as rewritten by a return at instant `now`. */
  function Closed(l: Loan, now: int): Loan
  {
    l.(devolvido := true, dataDevolucao := Some(now))
  }

  /** Returning loan `id`: every stored loan with that id is marked returned at `now`;
      every other loan, the length and the order are untouched. */
  function ReturnLoan(emprestimos: seq<Loan>, id: Id, now: int): (r: seq<Loan>)
    ensures |r| == |emprestimos|
    ensures forall i :: 0 <= i < |r| && emprestimos[i].id == id ==>
              r[i].devolvido && r[i].dataDevolucao == Some(now)
              && r[i].id == id && r[i].pessoaId == emprestimos[i].pessoaId
              && r[i].chaveId == emprestimos[i].chaveId && r[i].data == emprestimos[i].data
    ensures forall i :: 0 <= i < |r| && emprestimos[i].id != id ==> r[i] == emprestimos[i]
  {
    Map(emprestimos, (l: Loan) => if l.id == id then Closed(l, now) else l)
  }

  /** After a return no pending loan carries that id. */
  lemma ReturnedLoanNotPending(emprestimos: seq<Loan>, id: Id, now: int)
    ensures forall l :: l in OpenLoans(ReturnLoan(emprestimos, id, now)) ==> l.id != id
  {
    var r := ReturnLoan(emprestimos, id, now);
    forall l | l in OpenLoans(r) ensures l.id != id {
      var i :| 0 <= i < |r| && r[i] == l;
    }
  }

  /** Returning an id no stored loan carries writes back the same list. */
  lemma ReturnUnknownIdUnchanged(emprestimos: seq<Loan>, id: Id, now: int)
    requires forall l :: l in emprestimos ==> l.id != id
    ensures ReturnLoan(emprestimos, id, now) == emprestimos
  {
    var r := ReturnLoan(emprestimos, id, now);
    assert forall i :: 0 <= i < |r| ==> emprestimos[i] in emprestimos;
  }

  /** Returns never open a loan, so the one-open-loan-per-key invariant survives them. */
  lemma ReturnKeepsOneOpen(emprestimos: seq<Loan>, id: Id, now: int)
    requires AtMostOneOpenPerKey(emprestimos)
    ensures AtMostOneOpenPerKey(ReturnLoan(emprestimos, id, now))
  {
    var r := ReturnLoan(emprestimos, id, now);
    forall i, j | 0 <= i < j < |r| && IsOpen(r[i]) && IsOpen(r[j])
      ensures r[i].chaveId != r[j].chaveId
    {
      assert r[i] == emprestimos[i] && r[j] == emprestimos[j];
    }
  }

  /** Returning the one open loan of an active key makes the loan screen offer that key
      again to anyone its profile list admits. */
  lemma ReturnReoffersKey(chaves: seq<Key>, emprestimos: seq<Loan>, id: Id, now: int,
                          chave: Key, pessoa: Person)
    requires AtMostOneOpenPerKey(emprestimos)
    requires exists l :: l in emprestimos && l.id == id && IsOpen(l) && l.chaveId == chave.id
    requires chave in chaves && IsActive(chave.ativo)
    requires NovoEmprestimo.ProfileAllows(chave, pessoa.perfil)
    ensures chave in NovoEmprestimo.OfferedKeys(chaves, ReturnLoan(emprestimos, id, now), pessoa)
  {
    var r := ReturnLoan(emprestimos, id, now);
    var l :| l in emprestimos && l.id == id && IsOpen(l) && l.chaveId == chave.id;
    var k :| 0 <= k < |emprestimos| && emprestimos[k] == l;
    forall m | m in r && IsOpen(m) ensures m.chaveId != chave.id {
      var i :| 0 <= i < |r| && r[i] == m;
      assert emprestimos[i].id != id;
      assert r[i] == emprestimos[i];
      assert i != k;
    }
  }

  /** The pending-list search: an empty term shows every pending loan; otherwise a loan
      stays iff the lower-cased term occurs in its lower-cased key or person name. */
  function SearchPending(pending: seq<Loan>, term: string, pessoas: seq<Person>, chaves: seq<Key>): (r: seq<Loan>)
    ensures term == "" ==> r == pending
    ensures term != "" ==> forall l :: l in r <==>
      && l in pending
      && (|| Contains(LowerStr(PlainKeyName(chaves, l.chaveId)), LowerStr(term))
          || Contains(LowerStr(PlainPersonName(pessoas, l.pessoaId)), LowerStr(term)))
    ensures IsSubsequence(r, pending)
  {
    if term == "" then
      SubsequenceReflexive(pending);
      pending
    else
      var t := LowerStr(term);
      var keep := (l: Loan) =>
        || Contains(LowerStr(PlainKeyName(chaves, l.chaveId)), t)
        || Contains(LowerStr(PlainPersonName(pessoas, l.pessoaId)), t);
      FilterIsSubsequence(pending, keep);
      Filter(pending, keep)
  }
}

=== FILE: editar_chave.dfy ===
/** The key edit screen: loading the form, saving it back by id, and the
    deactivate/reactivate switch. Its profile picker is `ProfileSelection`. */
module EditarChave {
  import opened Wrappers
  import opened Seqs
  import opened Text
  import opened Records
  import NovoEmprestimo

  /** The form state. */
  datatype Form = Form(nome: string, descricao: string, perfis: seq<string>, ativo: bool)

  /** The form before anything is loaded. */
  const InitialForm: Form := Form("", "", [], true)

  /** The one alert shown instead of saving. */
  datatype EditError = NameAndProfileRequired

  /** `carregarChave`: the first stored key with the id fills the form; an absent
      description reads as "", an absent profile list as [] and an absent flag as active.
      With no match the form keeps its initial values. */
  function Load(chaves: seq<Key>, chaveId: Id): (r: Form)
    ensures (forall c :: c in chaves ==> c.id != chaveId) ==> r == InitialForm
    ensures forall i :: 0 <= i < |chaves| && chaves[i].id == chaveId
                        && (forall j :: 0 <= j < i ==> chaves[j].id != chaveId) ==>
              && r.nome == chaves[i].nome
              && r.descricao == (if chaves[i].descricao.Some? then chaves[i].descricao.value else "")
              && r.perfis == (if chaves[i].perfisPermitidos.Some? then chaves[i].perfisPermitidos.value else [])
              && (r.ativo <==> chaves[i].ativo != Some(false))
  {
    match FindKey(chaves, chaveId)
    case None => InitialForm
    case Some(c) => Form(c.nome, c.descricao.GetOr(""), c.perfisPermitidos.GetOr([]), IsActive(c.ativo))
  }

  /** The record as `handleSalvar` rewrites it. */
  function Edited(c: Key, f: Form): Key
  {
    c.(nome := f.nome, descricao := Some(f.descricao), perfisPermitidos := Some(f.perfis), ativo := Some(f.ativo))
  }

  /** `handleSalvar`: rejects a blank name or an empty profile list; otherwise every stored
      key with the id takes the form's values and nothing else changes. */
  function Save(f: Form, chaves: seq<Key>, chaveId: Id): (r: Result<seq<Key>, EditError>)
    ensures r.Failure? <==> IsBlank(f.nome) || |f.perfis| == 0
    ensures r.Success? ==>
      && |r.value| == |chaves|
      && (forall i :: 0 <= i < |chaves| && chaves[i].id != chaveId ==> r.value[i] == chaves[i])
      && (forall i :: 0 <= i < |chaves| && chaves[i].id == chaveId ==>
            && r.value[i].id == chaveId && r.value[i].nome == f.nome
            && r.value[i].descricao == Some(f.descricao) && r.value[i].perfisPermitidos == Some(f.perfis)
            && r.value[i].ativo == Some(f.ativo))
  {
    if IsBlank(f.nome) || |f.perfis| == 0 then Failure(NameAndProfileRequired)
    else Success(Map(chaves, (c: Key) => if c.id == chaveId then Edited(c, f) else c))
  }

  /** `handleToggleAtivo`, confirmed: the form's flag is negated and written to every
      stored key with the id; no key is removed and no other field changes. */
  function ToggleActive(f: Form, chaves: seq<Key>, chaveId: Id): (r: (Form, seq<Key>))
    ensures r.0.ativo == !f.ativo
    ensures |r.1| == |chaves|
    ensures forall i :: 0 <= i < |chaves| ==>
      r.1[i] == if chaves[i].id == chaveId then chaves[i].(ativo := Some(!f.ativo)) else chaves[i]
  {
    var novo := !f.ativo;
    (f.(ativo := novo), Map(chaves, (c: Key) => if c.id == chaveId then c.(ativo := Some(novo)) else c))
  }

  /** After a successful save the key names a non-empty profile list, so the loan screen's
      "no list means everybody" fallback no longer applies to it. */
  lemma SavedKeyIsRestricted(f: Form, chaves: seq<Key>, chaveId: Id, i: nat, perfil: Option<string>)
    requires Save(f, chaves, chaveId).Success?
    requires i < |chaves| && chaves[i].id == chaveId
    ensures var c := Save(f, chaves, chaveId).value[i];
      NovoEmprestimo.ProfileAllows(c, perfil) <==> perfil.Some? && perfil.value in f.perfis
  {
  }

  /** Deactivating a key takes it out of the loan screen's offer. */
  lemma DeactivatedKeyNotOffered(f: Form, chaves: seq<Key>, chaveId: Id, emprestimos: seq<Loan>, pessoa: Person)
    requires f.ativo
    ensures forall c :: c in NovoEmprestimo.OfferedKeys(ToggleActive(f, chaves, chaveId).1, emprestimos, pessoa)
                        ==> c.id != chaveId
  {
    var r := ToggleActive(f, chaves, chaveId).1;
    forall c | c in NovoEmprestimo.OfferedKeys(r, emprestimos, pessoa) ensures c.id != chaveId {
      assert c in r && IsActive(c.ativo);
      var i :| 0 <= i < |r| && r[i] == c;
    }
  }

  /** Loading a complete key and saving without changes keeps its data; only an absent
      description, list or flag becomes explicit. */
  lemma LoadThenSaveKeepsKey(chaves: seq<Key>, chaveId: Id, i: nat)
    requires i < |chaves| && chaves[i].id == chaveId
    requires forall j :: 0 <= j < |chaves| && j != i ==> chaves[j].id != chaveId
    requires !IsBlank(chaves[i].nome)
    requires chaves[i].perfisPermitidos.Some? && |chaves[i].perfisPermitidos.value| > 0
    ensures Save(Load(chaves, chaveId), chaves, chaveId).Success?
    ensures var r := Save(Load(chaves, chaveId), chaves, chaveId).value;
      && |r| == |chaves|
      && (forall j :: 0 <= j < |chaves| && j != i ==> r[j] == chaves[j])
      && r[i] == chaves[i].(descricao := Some(chaves[i].descricao.GetOr("")), ativo := Some(IsActive(chaves[i].ativo)))
  {
  }
}

=== FILE: editar_perfil.dfy ===
/** The access-profile edit screen: the weekday name/number maps, the conversion of the
    stored day list into the form, the weekday toggle and the save payload. */
module EditarPerfil {
  import opened Wrappers
  import opened Seqs
  import opened Text
  import opened Records

  /** `diasMap`: weekday name to the number the server stores (Sunday is 0). */
  function DayNumber(name: string): (r: Option<int>)
    ensures r.Some? ==> 0 <= r.value <= 6
  {
    if name == "segunda" then Some(1)
    else if name == "terca" then Some(2)
    else if name == "quarta" then Some(3)
    else if name == "quinta" then Some(4)
    else if name == "sexta" then Some(5)
    else if name == "sabado" then Some(6)
    else if name == "domingo" then Some(0)
    else None
  }

  /** `diasMapInverso`: stored number to weekday name. */
  function DayName(n: int): (r: Option<string>)
    ensures r.Some? <==> 0 <= n <= 6
  {
    if n == 1 then Some("segunda")
    else if n == 2 then Some("terca")
    else if n == 3 then Some("quarta")
    else if n == 4 then Some("quinta")
    else if n == 5 then Some("sexta")
    else if n == 6 then Some("sabado")
    else if n == 0 then Some("domingo")
    else None
  }

  /** The two maps are mutually inverse between the seven names and 0..6. */
  lemma DayMapsInverse(n: int, name: string)
    ensures DayName(n).Some? ==> DayNumber(DayName(n).value) == Some(n)
    ensures DayNumber(name).Some? ==> DayName(DayNumber(name).value) == Some(name)
  {
  }

  /** `diasMapInverso[entry]`: a number looks up its name; a string is an object key too,
      so exactly "0" to "6" find a name. Anything else finds nothing. */
  function EntryName(e: DayEntry): (r: Option<string>)
    ensures r.Some? ==> DayNumber(r.value).Some?
  {
    match e
    case DayNum(n) => DayName(n)
    case DayText(s) => if |s| == 1 && '0' <= s[0] <= '6' then DayName(s[0] as int - '0' as int) else None
  }

  /** An entry `diasMapInverso` finds a name for (kept by `filter(Boolean)`). */
  predicate HasName(e: DayEntry)
  {
    EntryName(e).Some?
  }

  /** The name of an entry that has one. */
  function NameOf(e: DayEntry): string
  {
    EntryName(e).GetOr("")
  }

  /** The form's initial day list: each stored entry mapped to its name, entries without
      a name dropped, order and repeats kept. */
  function LoadDays(ds: seq<DayEntry>): (r: seq<string>)
    ensures |r| <= |ds|
    ensures forall d :: d in r ==> DayNumber(d).Some?
    ensures forall d :: d in r <==> exists e :: e in ds && EntryName(e) == Some(d)
    ensures |r| == |Filter(ds, HasName)|
    ensures forall i :: 0 <= i < |r| ==> EntryName(Filter(ds, HasName)[i]) == Some(r[i])
  {
    var named := Filter(ds, HasName);
    var r := Map(named, NameOf);
    assert forall i :: 0 <= i < |r| ==> EntryName(named[i]) == Some(r[i]);
    forall d ensures d in r <==> exists e :: e in ds && EntryName(e) == Some(d) {
      if d in r {
        var i :| 0 <= i < |r| && r[i] == d;
        assert named[i] in named;
      }
      if exists e :: e in ds && EntryName(e) == Some(d) {
        var e :| e in ds && EntryName(e) == Some(d);
        assert e in named;
        var i :| 0 <= i < |named| && named[i] == e;
        assert r[i] == d;
      }
    }
    r
  }

  /** The form: name, start and end times ("" when absent) and selected weekday names. */
  datatype Form = Form(nome: string, horaInicio: string, horaFim: string, dias: seq<string>)

  /** The update the screen sends: trimmed name, times or null, day numbers or null.
      A day name with no number would be sent as null, hence `Option<int>`. */
  datatype Payload = Payload(
    nome: string,
    horaInicio: Option<string>,
    horaFim: Option<string>,
    diasSemana: Option<seq<Option<int>>>)

  /** The one alert shown instead of sending. */
  datatype ProfileError = NameRequired

  /** The form as first shown for a stored profile. */
  function Load(p: Profile): (r: Form)
    ensures r.nome == p.nome
    ensures r.horaInicio == "" <==> !Truthy(p.horaInicio)
    ensures r.horaFim == "" <==> !Truthy(p.horaFim)
    ensures Truthy(p.horaInicio) ==> r.horaInicio == p.horaInicio.value
    ensures Truthy(p.horaFim) ==> r.horaFim == p.horaFim.value
    ensures forall d :: d in r.dias <==> p.diasSemana.Some? && exists e :: e in p.diasSemana.value && EntryName(e) == Some(d)
  {
    Form(p.nome, p.horaInicio.GetOr(""), p.horaFim.GetOr(""), LoadDays(p.diasSemana.GetOr([])))
  }

  /** `handleToggleDia`: a selected day is removed, any other appended. */
  function ToggleDay(f: Form, dia: string): (r: Form)
    ensures r.nome == f.nome && r.horaInicio == f.horaInicio && r.horaFim == f.horaFim
    ensures dia in f.dias ==> dia !in r.dias && forall d :: d != dia ==> (d in r.dias <==> d in f.dias)
    ensures dia !in f.dias ==> r.dias == f.dias + [dia]
  {
    f.(dias := Toggle(f.dias, dia))
  }

  /** `""` becomes null. */
  function OrNull(s: string): (r: Option<string>)
    ensures r.None? <==> s == ""
    ensures r.Some? ==> r.value == s
  {
    if s == "" then None else Some(s)
  }

  /** `handleSalvar`: a blank name is rejected; otherwise the payload carries the trimmed
      name, empty times as null and the day numbers in selection order, an empty selection
      as null. */
  function Save(f: Form): (r: Result<Payload, ProfileError>)
    ensures r.Failure? <==> IsBlank(f.nome)
    ensures r.Success? ==>
      && r.value.nome == Trim(f.nome) && r.value.nome != ""
      && r.value.horaInicio == OrNull(f.horaInicio)
      && r.value.horaFim == OrNull(f.horaFim)
      && (r.value.diasSemana.None? <==> |f.dias| == 0)
      && (r.value.diasSemana.Some? ==>
            |r.value.diasSemana.value| == |f.dias|
            && forall i :: 0 <= i < |f.dias| ==> r.value.diasSemana.value[i] == DayNumber(f.dias[i]))
  {
    if IsBlank(f.nome) then Failure(NameRequired)
    else
      var nums := Map(f.dias, DayNumber);
      Success(Payload(Trim(f.nome), OrNull(f.horaInicio), OrNull(f.horaFim), if |nums| > 0 then Some(nums) else None))
  }

  /** Every day name the form can hold has a number, so the payload never sends a null day:
      loading only produces names, and the screen only toggles the seven names. */
  lemma FormDaysHaveNumbers(p: Profile, toggles: seq<string>)
    requires forall i :: 0 <= i < |toggles| ==> DayNumber(toggles[i]).Some?
    ensures forall d :: d in ApplyToggles(Load(p), toggles).dias ==> DayNumber(d).Some?
  {
    ToggledDaysKeepNumbers(Load(p), toggles);
  }

  /** The form after tapping the given days in order. */
  function ApplyToggles(f: Form, toggles: seq<string>): Form
    decreases |toggles|
  {
    if |toggles| == 0 then f else ApplyToggles(ToggleDay(f, toggles[0]), toggles[1..])
  }

  lemma {:induction false} ToggledDaysKeepNumbers(f: Form, toggles: seq<string>)
    requires forall d :: d in f.dias ==> DayNumber(d).Some?
    requires forall i :: 0 <= i < |toggles| ==> DayNumber(toggles[i]).Some?
    ensures forall d :: d in ApplyToggles(f, toggles).dias ==> DayNumber(d).Some?
    decreases |toggles|
  {
    if |toggles| > 0 {
      ToggledDaysKeepNumbers(ToggleDay(f, toggles[0]), toggles[1..]);
    }
  }

  /** Loading numeric days in 0..6 and converting the names back gives the stored numbers,
      one for one and in order. */
  lemma LoadDaysRoundTrip(ds: seq<DayEntry>)
    requires forall i :: 0 <= i < |ds| ==> ds[i].DayNum? && 0 <= ds[i].n <= 6
    ensures |LoadDays(ds)| == |ds|
    ensures forall i :: 0 <= i < |ds| ==> DayNumber(LoadDays(ds)[i]) == Some(ds[i].n)
  {
    FilterKeepsAll(ds, HasName);
    forall i | 0 <= i < |ds| ensures DayNumber(LoadDays(ds)[i]) == Some(ds[i].n) {
      DayMapsInverse(ds[i].n, "");
    }
  }

  /** Opening a stored profile whose days are numbers in 0..6 and saving it unchanged sends
      the same day list (null when it was empty or absent), the times it had (null when
      absent or empty) and its trimmed name. */
  lemma LoadThenSaveRoundTrip(p: Profile)
    requires !IsBlank(p.nome)
    requires p.diasSemana.Some? ==>
      forall i :: 0 <= i < |p.diasSemana.value| ==> p.diasSemana.value[i].DayNum? && 0 <= p.diasSemana.value[i].n <= 6
    ensures Save(Load(p)).Success?
    ensures var r := Save(Load(p)).value;
      && r.nome == Trim(p.nome)
      && r.horaInicio == (if Truthy(p.horaInicio) then p.horaInicio else None)
      && r.horaFim == (if Truthy(p.horaFim) then p.horaFim else None)
      && (r.diasSemana.None? <==> p.diasSemana.None? || |p.diasSemana.value| == 0)
      && (r.diasSemana.Some? ==>
            && |r.diasSemana.value| == |p.diasSemana.value|
            && forall i :: 0 <= i < |p.diasSemana.value| ==> r.diasSemana.value[i] == Some(p.diasSemana.value[i].n))
  {
    LoadDaysRoundTrip(p.diasSemana.GetOr([]));
  }

  /** The numbers saved for a selection of day names load back as exactly those names, in
      the same order and with the same repeats. */
  lemma SavedDaysLoadBack(dias: seq<string>, ds: seq<DayEntry>)
    requires forall d :: d in dias ==> DayNumber(d).Some?
    requires |ds| == |dias|
    requires forall i :: 0 <= i < |ds| ==> ds[i] == DayNum(DayNumber(dias[i]).value)
    ensures LoadDays(ds) == dias
    ensures forall d :: d in LoadDays(ds) <==> d in dias
  {
    forall i | 0 <= i < |ds| ensures HasName(ds[i]) && NameOf(ds[i]) == dias[i] {
      assert dias[i] in dias;
      DayMapsInverse(0, dias[i]);
    }
    FilterKeepsAll(ds, HasName);
  }
}

=== FILE: editar_pessoa.dfy ===
/** The person edit screen: loading the form, saving it back by id, and the
    deactivate/reactivate switch. */
module EditarPessoa {
  import opened Wrappers
  import opened Seqs
  import opened Text
  import opened Records
  import NovaPessoa

  /** The form state. `documento` is whatever the stored record held, possibly nothing. */
  datatype Form = Form(
    nome: string,
    documento: Option<string>,
    foto: Option<string>,
    perfil: Option<string>,
    telefone: string,
    ativo: bool)

  /** The form before anything is loaded. */
  const InitialForm: Form := Form("", Some(""), None, None, "", true)

  /** Why nothing was saved: a required field is missing, or the loaded record had no
      document at all, on which `documento.trim()` throws before any check completes. */
  datatype EditError = MissingFields | DocumentUndefined

  /** `carregarPessoa`: the first stored person with the id fills the form; an absent
      `ativo` reads as active and an absent phone as "". With an empty id or no match the
      form keeps its initial values. */
  function Load(pessoas: seq<Person>, pessoaId: Id): (r: Form)
    ensures (pessoaId == "" || forall p :: p in pessoas ==> p.id != pessoaId) ==> r == InitialForm
    ensures forall i :: pessoaId != "" && 0 <= i < |pessoas| && pessoas[i].id == pessoaId
                        && (forall j :: 0 <= j < i ==> pessoas[j].id != pessoaId) ==>
              && r.nome == pessoas[i].nome && r.documento == pessoas[i].documento
              && r.foto == pessoas[i].foto && r.perfil == pessoas[i].perfil
              && r.telefone == pessoas[i].telefone.GetOr("")
              && (r.ativo <==> pessoas[i].ativo != Some(false))
  {
    if pessoaId == "" then InitialForm
    else
      match FindPerson(pessoas, pessoaId)
      case None => InitialForm
      case Some(p) => Form(p.nome, p.documento, p.foto, p.perfil, p.telefone.GetOr(""), IsActive(p.ativo))
  }

  /** The record as `handleSalvar` rewrites it. */
  function Edited(p: Person, f: Form): Person
  {
    p.(nome := f.nome, documento := f.documento, foto := f.foto, perfil := f.perfil,
       ativo := Some(f.ativo), telefone := Some(f.telefone))
  }

  /** `handleSalvar`: rejects a blank name, an undefined or blank document, or a missing
      profile or photo; otherwise every stored person with the id takes the form's values,
      untrimmed and without a duplicate check, and nothing else changes. */
  function Save(f: Form, pessoas: seq<Person>, pessoaId: Id): (r: Result<seq<Person>, EditError>)
    ensures r.Failure? <==>
      IsBlank(f.nome) || f.documento.None? || IsBlank(f.documento.value) || !Truthy(f.perfil) || !Truthy(f.foto)
    ensures r == Failure(DocumentUndefined) <==> !IsBlank(f.nome) && f.documento.None?
    ensures r.Success? ==>
      && |r.value| == |pessoas|
      && (forall i :: 0 <= i < |pessoas| && pessoas[i].id != pessoaId ==> r.value[i] == pessoas[i])
      && (forall i :: 0 <= i < |pessoas| && pessoas[i].id == pessoaId ==>
            && r.value[i].id == pessoaId
            && r.value[i].nome == f.nome && r.value[i].documento == f.documento
            && r.value[i].foto == f.foto && r.value[i].perfil == f.perfil
            && r.value[i].ativo == Some(f.ativo) && r.value[i].telefone == Some(f.telefone))
  {
    if IsBlank(f.nome) then Failure(MissingFields)
    else if f.documento.None? then Failure(DocumentUndefined)
    else if IsBlank(f.documento.value) || !Truthy(f.perfil) || !Truthy(f.foto) then Failure(MissingFields)
    else Success(Map(pessoas, (p: Person) => if p.id == pessoaId then Edited(p, f) else p))
  }

  /** `handleToggleAtivo`, confirmed: the form's flag is negated and written to every
      stored person with the id; no record is removed and no other field changes. */
  function ToggleActive(f: Form, pessoas: seq<Person>, pessoaId: Id): (r: (Form, seq<Person>))
    ensures r.0.ativo == !f.ativo
    ensures |r.1| == |pessoas|
    ensures forall i :: 0 <= i < |pessoas| ==>
      r.1[i] == if pessoas[i].id == pessoaId then pessoas[i].(ativo := Some(!f.ativo)) else pessoas[i]
  {
    var novo := !f.ativo;
    (f.(ativo := novo), Map(pessoas, (p: Person) => if p.id == pessoaId then p.(ativo := Some(novo)) else p))
  }

  /** Loading a stored person and toggling flips whether that person counts as active. */
  lemma LoadThenToggleFlipsActive(pessoas: seq<Person>, pessoaId: Id, i: nat)
    requires pessoaId != "" && i < |pessoas| && pessoas[i].id == pessoaId
    requires forall j :: 0 <= j < |pessoas| && j != i ==> pessoas[j].id != pessoaId
    ensures var r := ToggleActive(Load(pessoas, pessoaId), pessoas, pessoaId).1;
      IsActive(r[i].ativo) <==> !IsActive(pessoas[i].ativo)
  {
  }

  /** Toggling twice from the same screen restores every person's active status; a record
      that had no flag ends with an explicit one of the same meaning. */
  lemma ToggleTwiceRestoresActive(f: Form, pessoas: seq<Person>, pessoaId: Id)
    requires forall p :: p in pessoas && p.id == pessoaId ==> IsActive(p.ativo) == f.ativo
    ensures var once := ToggleActive(f, pessoas, pessoaId);
            var twice := ToggleActive(once.0, once.1, pessoaId).1;
      && |twice| == |pessoas|
      && forall i :: 0 <= i < |pessoas| ==>
           IsActive(twice[i].ativo) == IsActive(pessoas[i].ativo) && twice[i].id == pessoas[i].id
  {
    var once := ToggleActive(f, pessoas, pessoaId);
    var twice := ToggleActive(once.0, once.1, pessoaId).1;
    forall i | 0 <= i < |pessoas|
      ensures IsActive(twice[i].ativo) == IsActive(pessoas[i].ativo) && twice[i].id == pessoas[i].id
    {
      if pessoas[i].id == pessoaId {
        assert pessoas[i] in pessoas;
      }
    }
  }

  /** Loading a complete record and saving without changes keeps its data; only an absent
      flag or phone becomes explicit. */
  lemma LoadThenSaveKeepsRecord(pessoas: seq<Person>, pessoaId: Id, i: nat)
    requires pessoaId != "" && i < |pessoas| && pessoas[i].id == pessoaId
    requires forall j :: 0 <= j < |pessoas| && j != i ==> pessoas[j].id != pessoaId
    requires var p := pessoas[i];
      !IsBlank(p.nome) && p.documento.Some? && !IsBlank(p.documento.value) && Truthy(p.perfil) && Truthy(p.foto)
    ensures Save(Load(pessoas, pessoaId), pessoas, pessoaId).Success?
    ensures var r := Save(Load(pessoas, pessoaId), pessoas, pessoaId).value;
      && |r| == |pessoas|
      && (forall j :: 0 <= j < |pessoas| && j != i ==> r[j] == pessoas[j])
      && r[i] == pessoas[i].(ativo := Some(IsActive(pessoas[i].ativo)), telefone := Some(pessoas[i].telefone.GetOr("")))
  {
    var p := pessoas[i];
    assert forall j :: 0 <= j < i ==> pessoas[j].id != pessoaId;
    assert Load(pessoas, pessoaId) == Form(p.nome, p.documento, p.foto, p.perfil, p.telefone.GetOr(""), IsActive(p.ativo));
  }

  /** Giving a person, by an edit, the document another stored person has succeeds and
      leaves two people with the same document key: the registration screen's uniqueness
      does not survive the edit screen. */
  lemma EditCanDuplicateDocument(pessoas: seq<Person>, f: Form, pessoaId: Id, i: nat, j: nat)
    requires i < |pessoas| && j < |pessoas| && i != j
    requires pessoas[i].id != pessoaId && pessoas[j].id == pessoaId
    requires Truthy(pessoas[i].documento) && f.documento == pessoas[i].documento
    requires Save(f, pessoas, pessoaId).Success?
    ensures !NovaPessoa.DocumentsUnique(Save(f, pessoas, pessoaId).value)
  {
    var r := Save(f, pessoas, pessoaId).value;
    assert r[i] == pessoas[i];
    assert r[j].documento == pessoas[i].documento;
    assert NovaPessoa.DocKey(r[i]) == NovaPessoa.DocKey(r[j]);
  }
}

=== FILE: historico.dfy ===
/** The history screen: newest-first history, the three view modes, grouping into
    sections, search and the export guard. */
module Historico {
  import opened Wrappers
  import opened Seqs
  import opened Sorting
  import opened Text
  import opened Records
  import opened Labels
  import DevolverChave

  datatype ViewMode = Recentes | PorPessoa | PorChave

  /** One heading of the grouped list and its loans. */
  datatype Section = Section(title: string, data: seq<Loan>)

  /** What the list shows: loans in 'recentes' mode, sections otherwise. */
  datatype Processed = Recent(loans: seq<Loan>) | Grouped(sections: seq<Section>)

  /** `b.data - a.data` as a comparator: `a` may come first when it is not older. */
  predicate NewerOrSame(a: Loan, b: Loan)
  {
    a.data >= b.data
  }

  /** The loaded history: all stored loans, newest withdrawal first. */
  function NewestFirst(emprestimos: seq<Loan>): (r: seq<Loan>)
    ensures multiset(r) == multiset(emprestimos)
    ensures forall i, j :: 0 <= i < j < |r| ==> r[i].data >= r[j].data
  {
    assert TotalPreorder(NewerOrSame);
    SortBy(emprestimos, NewerOrSame)
  }

  /** A loan matches a lower-cased term in 'recentes' mode when the term occurs in its
      lower-cased person or key label. */
  predicate RecentMatch(l: Loan, t: string, pessoas: seq<Person>, chaves: seq<Key>)
  {
    || Contains(LowerStr(PersonLabel(pessoas, l.pessoaId)), t)
    || Contains(LowerStr(KeyLabel(chaves, l.chaveId)), t)
  }

  /** 'recentes' search: an empty term returns the history; otherwise a loan stays iff the
      lower-cased term occurs in its lower-cased person or key label. */
  function SearchRecent(historico: seq<Loan>, term: string, pessoas: seq<Person>, chaves: seq<Key>): (r: seq<Loan>)
    ensures term == "" ==> r == historico
    ensures forall l :: l in r <==> l in historico && RecentMatch(l, LowerStr(term), pessoas, chaves)
    ensures IsSubsequence(r, historico)
  {
    var t := LowerStr(term);
    if t == "" then
      SubsequenceReflexive(historico);
      forall l | l in historico ensures RecentMatch(l, t, pessoas, chaves) {
        ContainsEmpty(LowerStr(PersonLabel(pessoas, l.pessoaId)));
      }
      historico
    else
      var keep := (l: Loan) => RecentMatch(l, t, pessoas, chaves);
      FilterIsSubsequence(historico, keep);
      Filter(historico, keep)
  }

  /** The id a loan is grouped under: its person in 'porPessoa' mode, its key otherwise. */
  function GroupKey(mode: ViewMode, l: Loan): Id
  {
    if mode == PorPessoa then l.pessoaId else l.chaveId
  }

  /** The loans grouped under `k`, in history order. */
  function GroupOf(historico: seq<Loan>, mode: ViewMode, k: Id): seq<Loan>
  {
    Filter(historico, (l: Loan) => GroupKey(mode, l) == k)
  }

  /** The grouping ids in first-appearance order (the object keys of the `reduce`). */
  function GroupKeys(historico: seq<Loan>, mode: ViewMode): (r: seq<Id>)
    ensures Distinct(r)
    ensures forall k :: k in r <==> exists l :: l in historico && GroupKey(mode, l) == k
  {
    var ks := Map(historico, (l: Loan) => GroupKey(mode, l));
    assert forall k :: k in ks <==> exists l :: l in historico && GroupKey(mode, l) == k by {
      forall k | k in ks ensures exists l :: l in historico && GroupKey(mode, l) == k {
        var i :| 0 <= i < |ks| && ks[i] == k;
        assert historico[i] in historico;
      }
      forall l | l in historico ensures GroupKey(mode, l) in ks {
        var i :| 0 <= i < |historico| && historico[i] == l;
        assert ks[i] == GroupKey(mode, l);
      }
    }
    Dedup(ks)
  }

  /** The section heading for a grouping id: `nomePessoa(id)` in 'porPessoa' mode,
      `nomeChave(id)` otherwise. */
  function Title(mode: ViewMode, k: Id, pessoas: seq<Person>, chaves: seq<Key>): string
  {
    if mode == PorPessoa then PersonLabel(pessoas, k) else KeyLabel(chaves, k)
  }

  /** The sections before sorting: one per grouping id, in first-appearance order. */
  function MakeSections(historico: seq<Loan>, mode: ViewMode, pessoas: seq<Person>, chaves: seq<Key>): (r: seq<Section>)
    ensures |r| == |GroupKeys(historico, mode)|
    ensures forall i :: 0 <= i < |r| ==> r[i].data == GroupOf(historico, mode, GroupKeys(historico, mode)[i])
    ensures mode == PorPessoa ==> forall i :: 0 <= i < |r| ==> r[i].title == PersonLabel(pessoas, GroupKeys(historico, mode)[i])
    ensures mode != PorPessoa ==> forall i :: 0 <= i < |r| ==> r[i].title == KeyLabel(chaves, GroupKeys(historico, mode)[i])
  {
    Map(GroupKeys(historico, mode), (k: Id) => Section(Title(mode, k, pessoas, chaves), GroupOf(historico, mode, k)))
  }

  /** Every loan of the history lies in some section. */
  lemma SectionsCoverHistory(historico: seq<Loan>, mode: ViewMode, pessoas: seq<Person>, chaves: seq<Key>)
    ensures forall l :: l in historico ==> exists s :: s in MakeSections(historico, mode, pessoas, chaves) && l in s.data
  {
    var keys := GroupKeys(historico, mode);
    var r := MakeSections(historico, mode, pessoas, chaves);
    forall l | l in historico ensures exists s :: s in r && l in s.data {
      assert GroupKey(mode, l) in keys;
      var i :| 0 <= i < |keys| && keys[i] == GroupKey(mode, l);
      assert l in r[i].data && r[i] in r;
    }
  }

  /** No loan lies in two different sections. */
  lemma SectionsAreDisjoint(historico: seq<Loan>, mode: ViewMode, pessoas: seq<Person>, chaves: seq<Key>)
    ensures var r := MakeSections(historico, mode, pessoas, chaves);
      forall s1, s2, l :: s1 in r && s2 in r && l in s1.data && l in s2.data ==> s1 == s2
  {
    var keys := GroupKeys(historico, mode);
    var r := MakeSections(historico, mode, pessoas, chaves);
    forall s1, s2, l | s1 in r && s2 in r && l in s1.data && l in s2.data ensures s1 == s2 {
      var i :| 0 <= i < |r| && r[i] == s1;
      var j :| 0 <= j < |r| && r[j] == s2;
      assert l in GroupOf(historico, mode, keys[i]) && l in GroupOf(historico, mode, keys[j]);
      assert keys[i] == GroupKey(mode, l) == keys[j];
      assert i == j;
    }
  }

  /** The group of an id that occurs in the history is a non-empty run of the history,
      in history order, whose loans all carry that id. */
  lemma GroupOfIsOrderedGroup(historico: seq<Loan>, mode: ViewMode, k: Id)
    requires k in GroupKeys(historico, mode)
    ensures |GroupOf(historico, mode, k)| > 0
    ensures IsSubsequence(GroupOf(historico, mode, k), historico)
    ensures forall l :: l in GroupOf(historico, mode, k) ==> GroupKey(mode, l) == k
  {
    FilterIsSubsequence(historico, (l: Loan) => GroupKey(mode, l) == k);
    var l :| l in historico && GroupKey(mode, l) == k;
    assert l in GroupOf(historico, mode, k);
  }

  /** Each section is a non-empty run of the history, in history order, whose loans share
      the grouping id. */
  lemma SectionsAreOrderedGroups(historico: seq<Loan>, mode: ViewMode, pessoas: seq<Person>, chaves: seq<Key>)
    ensures forall s :: s in MakeSections(historico, mode, pessoas, chaves) ==>
      && |s.data| > 0
      && IsSubsequence(s.data, historico)
      && forall l1, l2 :: l1 in s.data && l2 in s.data ==> GroupKey(mode, l1) == GroupKey(mode, l2)
  {
    var keys := GroupKeys(historico, mode);
    var r := MakeSections(historico, mode, pessoas, chaves);
    forall s | s in r
      ensures |s.data| > 0 && IsSubsequence(s.data, historico)
      ensures forall l1, l2 :: l1 in s.data && l2 in s.data ==> GroupKey(mode, l1) == GroupKey(mode, l2)
    {
      var i :| 0 <= i < |r| && r[i] == s;
      GroupOfIsOrderedGroup(historico, mode, keys[i]);
    }
  }

  /** `a.title.localeCompare(b.title)` as a comparator. */
  predicate TitleLe(a: Section, b: Section)
  {
    StrLe(a.title, b.title)
  }

  /** The sections sorted by title: the same sections, titles in ascending order. */
  function SortSections(sections: seq<Section>): (r: seq<Section>)
    ensures multiset(r) == multiset(sections)
    ensures forall i, j :: 0 <= i < j < |r| ==> StrLe(r[i].title, r[j].title)
  {
    StrLePreorderBy(TitleLe, (s: Section) => s.title);
    SortBy(sections, TitleLe)
  }

  /** A section matches a lower-cased term when the term occurs in its lower-cased title. */
  predicate TitleMatch(t: string, s: Section)
  {
    Contains(LowerStr(s.title), t)
  }

  /** Grouped search: an empty term keeps every section; otherwise whole sections stay iff
      the lower-cased term occurs in the lower-cased title. Sections are never split, and
      sections ordered by title stay so. */
  function SearchSections(sections: seq<Section>, term: string): (r: seq<Section>)
    ensures term == "" ==> r == sections
    ensures forall s :: s in r <==> s in sections && Contains(LowerStr(s.title), LowerStr(term))
    ensures IsSubsequence(r, sections)
    ensures Sorted(sections, TitleLe) ==> Sorted(r, TitleLe)
    ensures r == Filter(sections, (s: Section) => TitleMatch(LowerStr(term), s))
  {
    var t := LowerStr(term);
    var keep := (s: Section) => TitleMatch(t, s);
    if t == "" then
      SubsequenceReflexive(sections);
      forall s | s in sections ensures TitleMatch(t, s) {
        ContainsEmpty(LowerStr(s.title));
      }
      FilterKeepsAll(sections, keep);
      sections
    else
      FilterIsSubsequence(sections, keep);
      assert Sorted(sections, TitleLe) ==> Sorted(Filter(sections, keep), TitleLe) by {
        if Sorted(sections, TitleLe) {
          FilterKeepsSorted(sections, keep, TitleLe);
        }
      }
      Filter(sections, keep)
  }

  /** `processedData`: the list the screen shows for a mode and a search term. In
      'recentes' mode, the loans of the history whose labels contain the term, in history
      order; in a grouped mode, the sections whose title contains the term, ordered by
      title. An empty term matches everything. */
  function Process(mode: ViewMode, historico: seq<Loan>, pessoas: seq<Person>, chaves: seq<Key>, term: string): (r: Processed)
    ensures mode == Recentes <==> r.Recent?
    ensures r.Recent? ==> IsSubsequence(r.loans, historico)
    ensures r.Recent? ==> forall l :: l in r.loans <==> l in historico && RecentMatch(l, LowerStr(term), pessoas, chaves)
    ensures r.Grouped? ==> forall s :: s in r.sections <==>
      s in MakeSections(historico, mode, pessoas, chaves) && Contains(LowerStr(s.title), LowerStr(term))
    ensures r.Grouped? ==> forall i, j :: 0 <= i < j < |r.sections| ==> StrLe(r.sections[i].title, r.sections[j].title)
    ensures r.Grouped? ==>
      multiset(r.sections) == multiset(Filter(MakeSections(historico, mode, pessoas, chaves), (s: Section) => TitleMatch(LowerStr(term), s)))
  {
    if mode == Recentes then Recent(SearchRecent(historico, term, pessoas, chaves))
    else
      var made := MakeSections(historico, mode, pessoas, chaves);
      var sorted := SortSections(made);
      forall s ensures s in sorted <==> s in made {
        assert s in sorted <==> s in multiset(sorted);
        assert s in made <==> s in multiset(made);
      }
      FilterPermutation(sorted, made, (s: Section) => TitleMatch(LowerStr(term), s));
      Grouped(SearchSections(sorted, term))
  }

  /** With an empty search in a grouped mode, every loan of the history shows in exactly
      one section, sections are non-empty and ordered by title. */
  lemma GroupedViewIsPartition(mode: ViewMode, historico: seq<Loan>, pessoas: seq<Person>, chaves: seq<Key>)
    requires mode != Recentes
    ensures var sections := Process(mode, historico, pessoas, chaves, "").sections;
      && (forall l :: l in historico ==> exists s :: s in sections && l in s.data)
      && (forall s1, s2, l :: s1 in sections && s2 in sections && l in s1.data && l in s2.data ==> s1 == s2)
      && (forall s :: s in sections ==> |s.data| > 0 && IsSubsequence(s.data, historico))
      && (forall i, j :: 0 <= i < j < |sections| ==> StrLe(sections[i].title, sections[j].title))
  {
    SectionsCoverHistory(historico, mode, pessoas, chaves);
    SectionsAreDisjoint(historico, mode, pessoas, chaves);
    SectionsAreOrderedGroups(historico, mode, pessoas, chaves);
    var made := MakeSections(historico, mode, pessoas, chaves);
    var sorted := SortSections(made);
    assert forall s :: s in sorted <==> s in made by {
      forall s ensures s in sorted <==> s in made {
        assert s in sorted <==> s in multiset(sorted);
        assert s in made <==> s in multiset(made);
      }
    }
  }

  /** The number of entries in the processed list: loans in 'recentes' mode, sections
      otherwise. */
  function ResultLength(p: Processed): nat
  {
    match p
    case Recent(loans) => |loans|
    case Grouped(sections) => |sections|
  }

  /** Exporting is refused when the processed list is empty. */
  predicate CanExport(p: Processed)
  {
    ResultLength(p) > 0
  }

  /** Exporting is allowed iff something matches the search: in 'recentes' mode some loan
      whose labels contain the term, in a grouped mode some loan whose section title
      contains it. With an empty term, iff the history is not empty. */
  lemma ExportAllowedIffSomethingMatches(mode: ViewMode, historico: seq<Loan>, pessoas: seq<Person>,
                                         chaves: seq<Key>, term: string)
    ensures mode == Recentes ==> (CanExport(Process(mode, historico, pessoas, chaves, term)) <==>
      exists l :: l in historico && RecentMatch(l, LowerStr(term), pessoas, chaves))
    ensures mode != Recentes ==> (CanExport(Process(mode, historico, pessoas, chaves, term)) <==>
      exists l :: l in historico && GroupMatch(mode, l, LowerStr(term), pessoas, chaves))
    ensures term == "" ==> (CanExport(Process(mode, historico, pessoas, chaves, term)) <==> |historico| > 0)
  {
    if mode == Recentes {
      RecentViewNonEmptyIff(historico, pessoas, chaves, term);
      if term == "" && |historico| > 0 {
        ContainsEmpty(LowerStr(PersonLabel(pessoas, historico[0].pessoaId)));
        assert RecentMatch(historico[0], LowerStr(term), pessoas, chaves);
      }
    } else {
      GroupedViewNonEmptyIff(mode, historico, pessoas, chaves, term);
      if term == "" && |historico| > 0 {
        ContainsEmpty(LowerStr(Title(mode, GroupKey(mode, historico[0]), pessoas, chaves)));
        assert GroupMatch(mode, historico[0], LowerStr(term), pessoas, chaves);
      }
    }
  }

  /** The 'recentes' list is non-empty iff some loan of the history matches the term. */
  lemma RecentViewNonEmptyIff(historico: seq<Loan>, pessoas: seq<Person>, chaves: seq<Key>, term: string)
    ensures |Process(Recentes, historico, pessoas, chaves, term).loans| > 0 <==>
      exists l :: l in historico && RecentMatch(l, LowerStr(term), pessoas, chaves)
  {
    var r := Process(Recentes, historico, pessoas, chaves, term).loans;
    if exists l :: l in historico && RecentMatch(l, LowerStr(term), pessoas, chaves) {
      var l :| l in historico && RecentMatch(l, LowerStr(term), pessoas, chaves);
      assert l in r;
    }
    if |r| > 0 {
      assert r[0] in r;
    }
  }

  /** A loan matches a lower-cased term in a grouped mode when the term occurs in the
      lower-cased title of the section it is grouped under. */
  predicate GroupMatch(mode: ViewMode, l: Loan, t: string, pessoas: seq<Person>, chaves: seq<Key>)
  {
    Contains(LowerStr(Title(mode, GroupKey(mode, l), pessoas, chaves)), t)
  }

  /** A grouped list is non-empty iff some loan of the history lies under a title that
      matches the term. */
  lemma GroupedViewNonEmptyIff(mode: ViewMode, historico: seq<Loan>, pessoas: seq<Person>, chaves: seq<Key>, term: string)
    requires mode != Recentes
    ensures |Process(mode, historico, pessoas, chaves, term).sections| > 0 <==>
      exists l :: l in historico && GroupMatch(mode, l, LowerStr(term), pessoas, chaves)
  {
    var r := Process(mode, historico, pessoas, chaves, term).sections;
    if exists l :: l in historico && GroupMatch(mode, l, LowerStr(term), pessoas, chaves) {
      var l :| l in historico && GroupMatch(mode, l, LowerStr(term), pessoas, chaves);
      MatchingLoanIsShown(mode, historico, pessoas, chaves, term, l);
      var s :| s in r && l in s.data;
      assert |r| > 0;
    }
    if |r| > 0 {
      assert r[0] in r;
      ShownLoansMatch(mode, historico, pessoas, chaves, term, r[0]);
      assert r[0].data[0] in r[0].data;
    }
  }

  /** A loan of the history whose group title matches the term is shown in its section. */
  lemma MatchingLoanIsShown(mode: ViewMode, historico: seq<Loan>, pessoas: seq<Person>, chaves: seq<Key>,
                            term: string, l: Loan)
    requires mode != Recentes
    requires l in historico && GroupMatch(mode, l, LowerStr(term), pessoas, chaves)
    ensures exists s :: s in Process(mode, historico, pessoas, chaves, term).sections && l in s.data
  {
    var keys := GroupKeys(historico, mode);
    var made := MakeSections(historico, mode, pessoas, chaves);
    var r := Process(mode, historico, pessoas, chaves, term);
    assert GroupKey(mode, l) in keys;
    var i :| 0 <= i < |keys| && keys[i] == GroupKey(mode, l);
    var s := made[i];
    assert s.title == Title(mode, GroupKey(mode, l), pessoas, chaves);
    assert Contains(LowerStr(s.title), LowerStr(term));
    assert s in made;
    assert s in r.sections;
    assert l in s.data;
  }

  /** A shown section is not empty, and its loans are loans of the history whose group
      title matches the term. */
  lemma ShownLoansMatch(mode: ViewMode, historico: seq<Loan>, pessoas: seq<Person>, chaves: seq<Key>,
                        term: string, s: Section)
    requires mode != Recentes
    requires s in Process(mode, historico, pessoas, chaves, term).sections
    ensures |s.data| > 0
    ensures forall l :: l in s.data ==> l in historico && GroupMatch(mode, l, LowerStr(term), pessoas, chaves)
  {
    var t := LowerStr(term);
    assert s in MakeSections(historico, mode, pessoas, chaves) && Contains(LowerStr(s.title), t);
    SectionLoansMatch(mode, historico, pessoas, chaves, t, s);
  }

  /** A section whose title matches a term is non-empty and holds only loans of the
      history whose section title matches it. */
  lemma SectionLoansMatch(mode: ViewMode, historico: seq<Loan>, pessoas: seq<Person>, chaves: seq<Key>,
                          t: string, s: Section)
    requires s in MakeSections(historico, mode, pessoas, chaves) && Contains(LowerStr(s.title), t)
    ensures |s.data| > 0
    ensures forall l :: l in s.data ==> l in historico && GroupMatch(mode, l, t, pessoas, chaves)
  {
    var keys := GroupKeys(historico, mode);
    var made := MakeSections(historico, mode, pessoas, chaves);
    var i :| 0 <= i < |made| && made[i] == s;
    GroupOfIsOrderedGroup(historico, mode, keys[i]);
    assert s.title == Title(mode, keys[i], pessoas, chaves);
    forall l | l in s.data ensures l in historico && GroupMatch(mode, l, t, pessoas, chaves) {
      assert GroupKey(mode, l) == keys[i];
    }
  }

  /** The history shows the instant a loan was returned at once it is returned, and
      'Em andamento' for every loan still pending. */
  lemma ReturnedLoanShowsReturnDate(emprestimos: seq<Loan>, id: Id, now: int)
    ensures forall l :: l in DevolverChave.ReturnLoan(emprestimos, id, now) && l.id == id ==> ReturnShown(l) == Some(now)
    ensures forall l :: l in OpenLoans(emprestimos) ==> ReturnShown(l).None?
  {
    var r := DevolverChave.ReturnLoan(emprestimos, id, now);
    forall l | l in r && l.id == id ensures ReturnShown(l) == Some(now) {
      var i :| 0 <= i < |r| && r[i] == l;
      assert emprestimos[i].id == id;
    }
  }

  /** The return date shown for a loan: only when it is marked returned and has a date.
      `None` reads 'Em andamento' in an exported table; on a history card it means there is
      no 'Devolução' line. */
  function ReturnShown(l: Loan): (r: Option<int>)
    ensures r.Some? <==> l.devolvido && l.dataDevolucao.Some?
    ensures r.Some? ==> r == l.dataDevolucao
  {
    if l.devolvido && l.dataDevolucao.Some? then l.dataDevolucao else None
  }
}

=== FILE: labels.dfy ===
/** How a loan's person and key ids are shown as names. The report and history screens
    mark inactive records; the return screen only falls back to a placeholder. */
module Labels {
  import opened Wrappers
  import opened Records

  const UnknownPerson: string := "Desconhecido"
  const UnknownKey: string := "Desconhecida"
  const InactivePersonSuffix: string := " (Inativo)"
  const InactiveKeySuffix: string := " (Inativa)"

  /** `nomePessoa` of the report and history screens. */
  function PersonLabel(pessoas: seq<Person>, id: Id): (r: string)
    ensures (forall p :: p in pessoas ==> p.id != id) ==> r == UnknownPerson
    ensures forall i :: 0 <= i < |pessoas| && pessoas[i].id == id
                        && (forall j :: 0 <= j < i ==> pessoas[j].id != id) ==>
              r == if pessoas[i].ativo == Some(false) then pessoas[i].nome + InactivePersonSuffix
                   else pessoas[i].nome
  {
    match FindPerson(pessoas, id)
    case None => UnknownPerson
    case Some(p) => if p.ativo == Some(false) then p.nome + InactivePersonSuffix else p.nome
  }

  /** `nomeChave` of the report and history screens. */
  function KeyLabel(chaves: seq<Key>, id: Id): (r: string)
    ensures (forall c :: c in chaves ==> c.id != id) ==> r == UnknownKey
    ensures forall i :: 0 <= i < |chaves| && chaves[i].id == id
                        && (forall j :: 0 <= j < i ==> chaves[j].id != id) ==>
              r == if chaves[i].ativo == Some(false) then chaves[i].nome + InactiveKeySuffix
                   else chaves[i].nome
  {
    match FindKey(chaves, id)
    case None => UnknownKey
    case Some(c) => if c.ativo == Some(false) then c.nome + InactiveKeySuffix else c.nome
  }

  /** `nomePessoa` of the return screen: `find(...)?.nome || 'Desconhecido'`, so an empty
      stored name also shows the placeholder, and no inactive marker is added. */
  function PlainPersonName(pessoas: seq<Person>, id: Id): (r: string)
    ensures r != ""
    ensures r != UnknownPerson ==> exists p :: p in pessoas && p.id == id && p.nome == r
    ensures (forall p :: p in pessoas ==> p.id != id) ==> r == UnknownPerson
    ensures forall i :: 0 <= i < |pessoas| && pessoas[i].id == id
                        && (forall j :: 0 <= j < i ==> pessoas[j].id != id) ==>
              r == if pessoas[i].nome != "" then pessoas[i].nome else UnknownPerson
  {
    match FindPerson(pessoas, id)
    case Some(p) => if p.nome != "" then p.nome else UnknownPerson
    case None => UnknownPerson
  }

  /** `nomeChave` of the return screen, with the 'Desconhecida' fallback. */
  function PlainKeyName(chaves: seq<Key>, id: Id): (r: string)
    ensures r != ""
    ensures r != UnknownKey ==> exists c :: c in chaves && c.id == id && c.nome == r
    ensures (forall c :: c in chaves ==> c.id != id) ==> r == UnknownKey
    ensures forall i :: 0 <= i < |chaves| && chaves[i].id == id
                        && (forall j :: 0 <= j < i ==> chaves[j].id != id) ==>
              r == if chaves[i].nome != "" then chaves[i].nome else UnknownKey
  {
    match FindKey(chaves, id)
    case Some(c) => if c.nome != "" then c.nome else UnknownKey
    case None => UnknownKey
  }
}

=== FILE: lista_chaves.dfy ===
/** The key list screen: sorted by name, searched by name only, inactive keys marked. */
module ListaChaves {
  import opened Wrappers
  import opened Seqs
  import opened Sorting
  import opened Text
  import opened Records

  /** `a.nome.localeCompare(b.nome)` as a comparator. */
  predicate NameLe(a: Key, b: Key)
  {
    StrLe(a.nome, b.nome)
  }

  /** The loaded list: the same keys, in ascending name order. */
  function SortByName(chaves: seq<Key>): (r: seq<Key>)
    ensures multiset(r) == multiset(chaves)
    ensures forall i, j :: 0 <= i < j < |r| ==> StrLe(r[i].nome, r[j].nome)
  {
    StrLePreorderBy(NameLe, (c: Key) => c.nome);
    SortBy(chaves, NameLe)
  }

  /** `filteredChaves`: an empty term shows the whole list; otherwise the keys whose
      lower-cased name contains the lower-cased term. The description is not searched. */
  function Search(chaves: seq<Key>, term: string): (r: seq<Key>)
    ensures term == "" ==> r == chaves
    ensures term != "" ==> forall c :: c in r <==> c in chaves && Contains(LowerStr(c.nome), LowerStr(term))
    ensures IsSubsequence(r, chaves)
  {
    if term == "" then
      SubsequenceReflexive(chaves);
      chaves
    else
      var keep := (c: Key) => Contains(LowerStr(c.nome), LowerStr(term));
      FilterIsSubsequence(chaves, keep);
      Filter(chaves, keep)
  }

  /** Searching the sorted list keeps it sorted by name. */
  lemma SearchKeepsNameOrder(chaves: seq<Key>, term: string)
    ensures var r := Search(SortByName(chaves), term);
      forall i, j :: 0 <= i < j < |r| ==> StrLe(r[i].nome, r[j].nome)
  {
    var sorted := SortByName(chaves);
    assert Sorted(sorted, NameLe);
    if term != "" {
      FilterKeepsSorted(sorted, (c: Key) => Contains(LowerStr(c.nome), LowerStr(term)), NameLe);
    }
  }

  /** Keys that differ only in their description are kept or dropped together. */
  lemma DescriptionNotSearched(chaves: seq<Key>, term: string, c: Key, d: Option<string>)
    requires c in chaves && c.(descricao := d) in chaves
    ensures c in Search(chaves, term) <==> c.(descricao := d) in Search(chaves, term)
  {
  }

  /** `item.ativo === false`: the '(INATIVA)' marker shows exactly for keys the loan
      screen does not load. */
  predicate ShowsInactive(c: Key)
  {
    c.ativo == Some(false)
  }

  /** The key marker agrees with the `ativo !== false` rule used elsewhere. */
  lemma MarkerAgreesWithActive(c: Key)
    ensures ShowsInactive(c) <==> !IsActive(c.ativo)
  {
  }
}

=== FILE: lista_ocorrencias.dfy ===
/** The incident list: shaping the server's rows, and the text and date-range filters. */
module ListaOcorrencias {
  import opened Wrappers
  import opened Seqs
  import opened Text

  /** Milliseconds in a day. */
  const DayMs: int := 86_400_000

  /** An incident row as the server sends it; `dataHora` is an instant in milliseconds. */
  datatype Row = Row(
    id: int,
    descricao: string,
    responsavelRegistro: Option<string>,
    localId: Option<int>,
    localNome: Option<string>,
    dataHora: int)

  /** The place an incident is attached to, as the list shows it. */
  datatype Place = Place(id: int, nome: Option<string>)

  /** A shaped incident: the row plus its `local` object, or none. */
  datatype Incident = Incident(row: Row, local: Option<Place>)

  /** The list's filter state: search text and optional start and end dates. */
  datatype Filters = Filters(query: string, start: Option<int>, end: Option<int>)

  /** `local: o.local_id ? {...} : null`. */
  function Shape(o: Row): (r: Incident)
    ensures r.row == o
    ensures r.local.None? <==> o.localId.None? || o.localId == Some(0)
    ensures r.local.Some? ==> r.local.value == Place(o.localId.value, o.localNome)
  {
    if o.localId.Some? && o.localId.value != 0 then Incident(o, Some(Place(o.localId.value, o.localNome)))
    else Incident(o, None)
  }

  /** The shown place name, "" when there is none. */
  function PlaceName(i: Incident): string
  {
    if i.local.Some? && i.local.value.nome.Some? then i.local.value.nome.value else ""
  }

  /** The text test: the lower-cased query occurs in the lower-cased description,
      recorder or place name (absent ones read as ""). */
  predicate MatchesText(i: Incident, query: string)
  {
    var q := LowerStr(query);
    || Contains(LowerStr(i.row.descricao), q)
    || Contains(LowerStr(i.row.responsavelRegistro.GetOr("")), q)
    || Contains(LowerStr(PlaceName(i)), q)
  }

  /** The local calendar day of an instant, for a zone `tz` milliseconds ahead of UTC. */
  function DayOf(t: int, tz: int): int
  {
    (t + tz) / DayMs
  }

  /** `setHours(0, 0, 0, 0)`: the first millisecond of the instant's local day. */
  function StartOfDay(t: int, tz: int): (r: int)
    ensures r <= t < r + DayMs
    ensures DayOf(r, tz) == DayOf(t, tz)
  {
    DayOf(t, tz) * DayMs - tz
  }

  /** `setHours(23, 59, 59, 999)`: the last millisecond of the instant's local day. */
  function EndOfDay(t: int, tz: int): (r: int)
    ensures r - DayMs < t <= r
    ensures DayOf(r, tz) == DayOf(t, tz)
  {
    StartOfDay(t, tz) + DayMs - 1
  }

  /** The start filter keeps exactly the incidents on the start day or later. */
  lemma StartFilterByDay(t: int, start: int, tz: int)
    ensures t >= StartOfDay(start, tz) <==> DayOf(t, tz) >= DayOf(start, tz)
  {
  }

  /** The end filter keeps exactly the incidents on the end day or earlier. */
  lemma EndFilterByDay(t: int, end: int, tz: int)
    ensures t <= EndOfDay(end, tz) <==> DayOf(t, tz) <= DayOf(end, tz)
  {
  }

  /** The text filter, applied only for a non-empty query. */
  function ByText(xs: seq<Incident>, query: string): (r: seq<Incident>)
    ensures forall i :: i in r <==> i in xs && (query != "" ==> MatchesText(i, query))
    ensures IsSubsequence(r, xs)
  {
    if query != "" then
      FilterIsSubsequence(xs, (i: Incident) => MatchesText(i, query));
      Filter(xs, (i: Incident) => MatchesText(i, query))
    else
      SubsequenceReflexive(xs);
      xs
  }

  /** The start-date filter, applied only when a start date is set: inclusive from the
      first millisecond of the start day. */
  function ByStart(xs: seq<Incident>, start: Option<int>, tz: int): (r: seq<Incident>)
    ensures forall i :: i in r <==> i in xs && (start.Some? ==> DayOf(i.row.dataHora, tz) >= DayOf(start.value, tz))
    ensures IsSubsequence(r, xs)
  {
    if start.Some? then
      var keep := (i: Incident) => i.row.dataHora >= StartOfDay(start.value, tz);
      assert forall i :: keep(i) <==> DayOf(i.row.dataHora, tz) >= DayOf(start.value, tz) by {
        forall i ensures keep(i) <==> DayOf(i.row.dataHora, tz) >= DayOf(start.value, tz) {
          StartFilterByDay(i.row.dataHora, start.value, tz);
        }
      }
      FilterIsSubsequence(xs, keep);
      Filter(xs, keep)
    else
      SubsequenceReflexive(xs);
      xs
  }

  /** The end-date filter, applied only when an end date is set: inclusive through the
      last millisecond of the end day. */
  function ByEnd(xs: seq<Incident>, end: Option<int>, tz: int): (r: seq<Incident>)
    ensures forall i :: i in r <==> i in xs && (end.Some? ==> DayOf(i.row.dataHora, tz) <= DayOf(end.value, tz))
    ensures IsSubsequence(r, xs)
  {
    if end.Some? then
      var keep := (i: Incident) => i.row.dataHora <= EndOfDay(end.value, tz);
      assert forall i :: keep(i) <==> DayOf(i.row.dataHora, tz) <= DayOf(end.value, tz) by {
        forall i ensures keep(i) <==> DayOf(i.row.dataHora, tz) <= DayOf(end.value, tz) {
          EndFilterByDay(i.row.dataHora, end.value, tz);
        }
      }
      FilterIsSubsequence(xs, keep);
      Filter(xs, keep)
    else
      SubsequenceReflexive(xs);
      xs
  }

  /** `filteredOcorrencias`: text, then start date, then end date; the filters combine
      as a conjunction and the result keeps the list order. */
  function Apply(all: seq<Incident>, f: Filters, tz: int): (r: seq<Incident>)
    ensures forall i :: i in r <==>
      && i in all
      && (f.query != "" ==> MatchesText(i, f.query))
      && (f.start.Some? ==> DayOf(i.row.dataHora, tz) >= DayOf(f.start.value, tz))
      && (f.end.Some? ==> DayOf(i.row.dataHora, tz) <= DayOf(f.end.value, tz))
    ensures IsSubsequence(r, all)
  {
    var byText := ByText(all, f.query);
    var byStart := ByStart(byText, f.start, tz);
    var byEnd := ByEnd(byStart, f.end, tz);
    SubsequenceTransitive(byEnd, byStart, byText);
    SubsequenceTransitive(byEnd, byText, all);
    byEnd
  }

  /** `clearFilters`: no query and no dates. */
  const Cleared: Filters := Filters("", None, None)

  /** With no query and no dates the whole list shows, in order; `clearFilters` gets there. */
  lemma ClearedShowsAll(all: seq<Incident>, tz: int)
    ensures Apply(all, Cleared, tz) == all
  {
  }
}

=== FILE: lista_perfis.dfy ===
/** The access-profile list: the time and weekday summary labels of each profile and the
    group test that shows the management controls. */
module ListaPerfis {
  import opened Wrappers
  import opened Seqs
  import opened Text
  import opened Records
  import EditarPerfil

  const AllDay: string := "Acesso 24h"
  const EveryDay: string := "Todos os dias"

  /** `diasOrdem`: the weekday names in display order, Sunday first. */
  const DiasOrdem: seq<string> := ["domingo", "segunda", "terca", "quarta", "quinta", "sexta", "sabado"]

  /** The seven names of `diasOrdem` are pairwise different. */
  lemma DiasOrdemDistinct()
    ensures Distinct(DiasOrdem)
  {
    assert forall i :: 0 <= i < 7 ==> DiasOrdem[i][0] in "dstqs" && |DiasOrdem[i]| >= 5;
    assert DiasOrdem[3][2] != DiasOrdem[4][2];
    assert DiasOrdem[1][1] != DiasOrdem[6][1] && DiasOrdem[5][1] != DiasOrdem[6][1];
    assert DiasOrdem[1][2] != DiasOrdem[5][2];
  }

  /** `diasMap[dia]` as `join` prints it: the abbreviation of a weekday name, and "" for
      any other string (an `undefined` element joins as ""). */
  function Abbrev(dia: string): string
  {
    if dia == "domingo" then "Dom"
    else if dia == "segunda" then "Seg"
    else if dia == "terca" then "Ter"
    else if dia == "quarta" then "Qua"
    else if dia == "quinta" then "Qui"
    else if dia == "sexta" then "Sex"
    else if dia == "sabado" then "Sáb"
    else ""
  }

  /** `horario`: "inicio - fim" when both times are set, otherwise the all-day label. */
  function TimeLabel(p: Profile): (r: string)
    ensures r == AllDay <==> !(Truthy(p.horaInicio) && Truthy(p.horaFim))
    ensures Truthy(p.horaInicio) && Truthy(p.horaFim) ==> r == p.horaInicio.value + " - " + p.horaFim.value
  {
    if Truthy(p.horaInicio) && Truthy(p.horaFim) then
      var r := p.horaInicio.value + " - " + p.horaFim.value;
      assert r[|p.horaInicio.value| + 1] == '-';
      assert forall i :: 0 <= i < |AllDay| ==> AllDay[i] != '-';
      r
    else AllDay
  }

  /** The days the label lists, as written: each name of `diasOrdem` that occurs as a
      string in the stored list. Stored numbers never match a name. */
  function SelectedDays(ds: seq<DayEntry>): (r: seq<string>)
    ensures forall d :: d in r <==> d in DiasOrdem && DayText(d) in ds
    ensures IsSubsequence(r, DiasOrdem) && Distinct(r)
  {
    FilterIsSubsequence(DiasOrdem, (d: string) => DayText(d) in ds);
    DiasOrdemDistinct();
    FilterKeepsDistinct(DiasOrdem, (d: string) => DayText(d) in ds);
    Filter(DiasOrdem, (d: string) => DayText(d) in ds)
  }

  /** `diasPermitidos` as written: every day for an absent or empty list, otherwise the
      abbreviations of the selected days joined with ", ". */
  function DaysLabel(dias: Option<seq<DayEntry>>): (r: string)
    ensures dias.None? || |dias.value| == 0 ==> r == EveryDay
  {
    if dias.Some? && |dias.value| > 0 then Join(Map(SelectedDays(dias.value), Abbrev), ", ")
    else EveryDay
  }

  /** The label depends only on which entries occur: not on their order or repetition. */
  lemma DaysLabelIgnoresOrderAndRepeats(ds1: seq<DayEntry>, ds2: seq<DayEntry>)
    requires forall e :: e in ds1 <==> e in ds2
    ensures DaysLabel(Some(ds1)) == DaysLabel(Some(ds2))
  {
    FilterCongruent(DiasOrdem, (d: string) => DayText(d) in ds1, (d: string) => DayText(d) in ds2);
    if |ds1| > 0 {
      assert ds1[0] in ds2;
    }
    if |ds2| > 0 {
      assert ds2[0] in ds1;
    }
  }

  /** The days the screen shows as selected are listed in Sunday-first order, each once. */
  lemma SelectedDaysInWeekOrder(ds: seq<DayEntry>)
    ensures var sel := SelectedDays(ds);
      forall i, j :: 0 <= i < j < |sel| ==> IndexIn(sel[i]) < IndexIn(sel[j])
  {
    var sel := SelectedDays(ds);
    SubsequenceKeepsIndexOrder(sel, DiasOrdem, 0);
  }

  /** The position of a weekday name in `diasOrdem` (7 for any other string). */
  function IndexIn(d: string): nat
  {
    if d == "domingo" then 0 else if d == "segunda" then 1 else if d == "terca" then 2
    else if d == "quarta" then 3 else if d == "quinta" then 4 else if d == "sexta" then 5
    else if d == "sabado" then 6 else 7
  }

  lemma {:induction false} SubsequenceKeepsIndexOrder(sub: seq<string>, s: seq<string>, k: nat)
    requires k + |s| <= |DiasOrdem| && s == DiasOrdem[k..]
    requires IsSubsequence(sub, s)
    ensures forall x :: x in sub ==> k <= IndexIn(x) < |DiasOrdem|
    ensures forall i, j :: 0 <= i < j < |sub| ==> IndexIn(sub[i]) < IndexIn(sub[j])
    decreases |s|
  {
    assert forall i :: 0 <= i < |DiasOrdem| ==> IndexIn(DiasOrdem[i]) == i;
    if |sub| > 0 && |s| > 0 {
      if sub[0] == s[0] {
        SubsequenceKeepsIndexOrder(sub[1..], s[1..], k + 1);
        assert forall x :: x in sub ==> x == sub[0] || x in sub[1..];
        forall i, j | 0 <= i < j < |sub| ensures IndexIn(sub[i]) < IndexIn(sub[j]) {
          assert sub[j] == sub[1..][j - 1];
        }
      } else {
        SubsequenceKeepsIndexOrder(sub, s[1..], k + 1);
      }
    }
  }

  /** The days the stored list denotes the way the edit screen reads it: by name, or by
      a number (or numeric string) the edit screen maps to that name. */
  predicate Denotes(e: DayEntry, d: string)
  {
    e == DayText(d) || EditarPerfil.EntryName(e) == Some(d)
  }

  /** The days the corrected label lists. */
  function SelectedDaysFixed(ds: seq<DayEntry>): (r: seq<string>)
    ensures forall d :: d in r <==> d in DiasOrdem && exists e :: e in ds && Denotes(e, d)
    ensures IsSubsequence(r, DiasOrdem) && Distinct(r)
  {
    var keep := (d: string) => exists e :: e in ds && Denotes(e, d);
    FilterIsSubsequence(DiasOrdem, keep);
    DiasOrdemDistinct();
    FilterKeepsDistinct(DiasOrdem, keep);
    Filter(DiasOrdem, keep)
  }

  /** `diasPermitidos` matching the day numbers the edit screen stores: every day for an
      absent or empty list; a list holding some day the edit screen can read gives a
      non-empty label of abbreviations, never 'Todos os dias'. */
  function DaysLabelFixed(dias: Option<seq<DayEntry>>): (r: string)
    ensures dias.None? || |dias.value| == 0 ==> r == EveryDay
    ensures dias.Some? && (exists e :: e in dias.value && EditarPerfil.EntryName(e).Some?) ==> r != "" && r != EveryDay
  {
    if dias.Some? && |dias.value| > 0 then
      var sel := SelectedDaysFixed(dias.value);
      var r := Join(Map(sel, Abbrev), ", ");
      assert (exists e :: e in dias.value && EditarPerfil.EntryName(e).Some?) ==> r != "" && r != EveryDay by {
        if exists e :: e in dias.value && EditarPerfil.EntryName(e).Some? {
          var e :| e in dias.value && EditarPerfil.EntryName(e).Some?;
          var d := EditarPerfil.EntryName(e).value;
          NamedDayIsOrdered(d);
          assert Denotes(e, d);
          assert d in sel;
          AbbrevLabelNamesADay(sel);
        }
      }
      r
    else EveryDay
  }

  /** Joining the abbreviations of a non-empty list of weekday names gives a label that is
      neither empty nor 'Todos os dias': it starts with the first abbreviation. */
  lemma AbbrevLabelNamesADay(sel: seq<string>)
    requires |sel| > 0 && sel[0] in DiasOrdem
    ensures Join(Map(sel, Abbrev), ", ") != ""
    ensures Join(Map(sel, Abbrev), ", ") != EveryDay
  {
    var xs := Map(sel, Abbrev);
    assert xs[0] == Abbrev(sel[0]);
    AbbrevDiffersFromEveryDay(sel[0]);
    PrefixIsNotEveryDay(xs[0], Join(xs, ", "));
  }

  /** A string starting with a three-letter abbreviation is neither empty nor
      'Todos os dias'. */
  lemma PrefixIsNotEveryDay(a: string, r: string)
    requires |a| == 3 && (a[0] != EveryDay[0] || a[1] != EveryDay[1])
    requires a <= r
    ensures r != "" && r != EveryDay
  {
    assert r[0] == a[0] && r[1] == a[1];
  }

  /** The abbreviation of a weekday name has three letters, and its first two differ from
      those of 'Todos os dias'. */
  lemma AbbrevDiffersFromEveryDay(d: string)
    requires d in DiasOrdem
    ensures |Abbrev(d)| == 3 && (Abbrev(d)[0] != EveryDay[0] || Abbrev(d)[1] != EveryDay[1])
  {
    var a := Abbrev(d);
    assert a == "Dom" || a == "Seg" || a == "Ter" || a == "Qua" || a == "Qui" || a == "Sex" || a == "Sáb";
    assert EveryDay[0] == 'T' && EveryDay[1] == 'o';
  }

  /** As written, a non-empty list of day numbers (what the edit screen saves) selects no
      day at all: the label is the empty string, neither the days nor 'Todos os dias'. */
  lemma NumericDaysShowEmptyLabel(ds: seq<DayEntry>)
    requires |ds| > 0
    requires forall i :: 0 <= i < |ds| ==> ds[i].DayNum?
    ensures SelectedDays(ds) == []
    ensures DaysLabel(Some(ds)) == ""
  {
    var sel := SelectedDays(ds);
    forall d ensures d !in sel {
      assert DayText(d) !in ds by {
        forall i | 0 <= i < |ds| ensures ds[i] != DayText(d) { }
      }
    }
  }

  /** Every name the edit screen can hold is one of the names the list screen orders. */
  lemma NamedDayIsOrdered(d: string)
    requires EditarPerfil.DayNumber(d).Some?
    ensures d in DiasOrdem
  {
  }

  /** Corrected, the label lists exactly the days the edit screen shows as selected for
      the same stored list, for every list of day numbers. */
  lemma FixedLabelMatchesEditScreen(ds: seq<DayEntry>)
    requires forall i :: 0 <= i < |ds| ==> ds[i].DayNum?
    ensures forall d :: d in SelectedDaysFixed(ds) <==> d in EditarPerfil.LoadDays(ds)
  {
    forall d | d in EditarPerfil.LoadDays(ds) ensures d in SelectedDaysFixed(ds) {
      var e :| e in ds && EditarPerfil.EntryName(e) == Some(d);
      assert Denotes(e, d);
      NamedDayIsOrdered(d);
    }
    forall d | d in SelectedDaysFixed(ds) ensures d in EditarPerfil.LoadDays(ds) {
      var e :| e in ds && Denotes(e, d);
      assert e.DayNum?;
      assert EditarPerfil.EntryName(e) == Some(d);
    }
  }

  /** A profile saved by the edit screen with some days selected comes back as their
      numbers; the corrected label then lists exactly those days, while the label as
      written is empty. */
  lemma SavedDaysShownWhenFixed(f: EditarPerfil.Form, ds: seq<DayEntry>)
    requires forall d :: d in f.dias ==> EditarPerfil.DayNumber(d).Some?
    requires |f.dias| > 0
    requires |ds| == |f.dias|
    requires forall i :: 0 <= i < |ds| ==> ds[i] == DayNum(EditarPerfil.DayNumber(f.dias[i]).value)
    ensures forall d :: d in SelectedDaysFixed(ds) <==> d in f.dias
    ensures DaysLabel(Some(ds)) == ""
  {
    NumericDaysShowEmptyLabel(ds);
    FixedLabelMatchesEditScreen(ds);
    EditarPerfil.SavedDaysLoadBack(f.dias, ds);
  }

  /** The corrected label also ignores order and repetition. */
  lemma DaysLabelFixedIgnoresOrderAndRepeats(ds1: seq<DayEntry>, ds2: seq<DayEntry>)
    requires forall e :: e in ds1 <==> e in ds2
    ensures DaysLabelFixed(Some(ds1)) == DaysLabelFixed(Some(ds2))
  {
    FilterCongruent(DiasOrdem, (d: string) => exists e :: e in ds1 && Denotes(e, d),
                               (d: string) => exists e :: e in ds2 && Denotes(e, d));
    if |ds1| > 0 {
      assert ds1[0] in ds2;
    }
    if |ds2| > 0 {
      assert ds2[0] in ds1;
    }
  }

  /** Edit, delete and add controls show only for the 'admin' and 'fiscal' groups; before
      the group is read (`null`) they are hidden. */
  predicate CanManage(grupo: Option<string>)
  {
    grupo == Some("admin") || grupo == Some("fiscal")
  }

  /** The stored 'operador' record, of which the screen reads only `grupo` (absent when
      the record has none). Login stores it; logging out removes it. */
  datatype Operator = Operator(grupo: Option<string>)

  /** `userGroup` after one focus: a stored record sets it to the record's `grupo`; with
      nothing stored (`None`) it keeps its previous value. */
  function GroupAfterFocus(prev: Option<string>, stored: Option<Operator>): Option<string>
  {
    if stored.Some? then stored.value.grupo else prev
  }

  /** `userGroup` after the screen was focused with the given storage contents `seen`, in order,
      starting from `prev`. */
  function GroupAfterFocuses(prev: Option<string>, seen: seq<Option<Operator>>): Option<string>
    decreases |seen|
  {
    if |seen| == 0 then prev
    else GroupAfterFocus(GroupAfterFocuses(prev, seen[..|seen| - 1]), seen[|seen| - 1])
  }

  /** The last operator record among the storage contents seen: `None` iff no focus found
      one. */
  function LastStored(seen: seq<Option<Operator>>): (r: Option<Operator>)
    ensures r.None? <==> forall i :: 0 <= i < |seen| ==> seen[i].None?
    decreases |seen|
  {
    if |seen| == 0 then None
    else if seen[|seen| - 1].Some? then seen[|seen| - 1]
    else
      var r := LastStored(seen[..|seen| - 1]);
      assert forall i :: 0 <= i < |seen| - 1 ==> seen[..|seen| - 1][i] == seen[i];
      r
  }

  /** A record `LastStored` returns was seen at some focus after which no record was. */
  lemma {:induction false} LastStoredIsLast(seen: seq<Option<Operator>>)
    requires LastStored(seen).Some?
    ensures exists i :: 0 <= i < |seen| && seen[i] == LastStored(seen) && forall j :: i < j < |seen| ==> seen[j].None?
    decreases |seen|
  {
    var n := |seen| - 1;
    if seen[n].Some? {
      assert seen[n] == LastStored(seen);
    } else {
      var init := seen[..n];
      LastStoredIsLast(init);
      var i :| 0 <= i < |init| && init[i] == LastStored(init) && forall j :: i < j < |init| ==> init[j].None?;
      assert seen[i] == LastStored(seen);
      assert forall j :: i < j < |seen| ==> j == n || seen[j] == init[j];
    }
  }

  /** The group the screen holds is the one of the last record it read; when it never read
      one, the value it started with. */
  lemma {:induction false} GroupIsLastStored(prev: Option<string>, seen: seq<Option<Operator>>)
    ensures LastStored(seen).Some? ==> GroupAfterFocuses(prev, seen) == LastStored(seen).value.grupo
    ensures LastStored(seen).None? ==> GroupAfterFocuses(prev, seen) == prev
    decreases |seen|
  {
    if |seen| > 0 {
      GroupIsLastStored(prev, seen[..|seen| - 1]);
    }
  }

  /** Starting from `null`, the controls show iff some focus read a record with the 'admin'
      or 'fiscal' group and no later focus read a record at all. A record without a group,
      or no record ever, hides them. */
  lemma ControlsFollowLastOperator(seen: seq<Option<Operator>>)
    ensures CanManage(GroupAfterFocuses(None, seen)) <==>
      exists i :: 0 <= i < |seen| && seen[i].Some? && CanManage(seen[i].value.grupo) && forall j :: i < j < |seen| ==> seen[j].None?
    ensures (forall i :: 0 <= i < |seen| ==> seen[i].None?) ==> !CanManage(GroupAfterFocuses(None, seen))
  {
    GroupIsLastStored(None, seen);
    if LastStored(seen).Some? {
      LastStoredIsLast(seen);
    }
    forall i | 0 <= i < |seen| && seen[i].Some? && forall j :: i < j < |seen| ==> seen[j].None?
      ensures LastStored(seen) == seen[i]
    {
      LastStoredAt(seen, i);
    }
  }

  /** A record seen at a focus after which none was is the one `LastStored` returns. */
  lemma {:induction false} LastStoredAt(seen: seq<Option<Operator>>, i: nat)
    requires i < |seen| && seen[i].Some?
    requires forall j :: i < j < |seen| ==> seen[j].None?
    ensures LastStored(seen) == seen[i]
    decreases |seen|
  {
    var n := |seen| - 1;
    if i < n {
      var init := seen[..n];
      assert forall j :: i < j < |init| ==> init[j] == seen[j];
      LastStoredAt(init, i);
    }
  }

  /** The group is not cleared when the record is removed: an 'admin' who logs out elsewhere
      still sees the controls when the mounted screen is focused again. */
  lemma ControlsOutliveLogout()
    ensures CanManage(GroupAfterFocuses(None, [Some(Operator(Some("admin"))), None]))
  {
    var seen := [Some(Operator(Some("admin"))), None];
    assert seen[..1] == [Some(Operator(Some("admin")))];
    assert seen[..1][..0] == [];
  }
}

=== FILE: lista_pessoas.dfy ===
/** The people list screen: sorted by name, searched by name or document, with its own
    reading of the inactive marker. */
module ListaPessoas {
  import opened Wrappers
  import opened Seqs
  import opened Sorting
  import opened Text
  import opened Records

  /** `a.nome.localeCompare(b.nome)` as a comparator. */
  predicate NameLe(a: Person, b: Person)
  {
    StrLe(a.nome, b.nome)
  }

  /** The loaded list: the same people, in ascending name order. */
  function SortByName(pessoas: seq<Person>): (r: seq<Person>)
    ensures multiset(r) == multiset(pessoas)
    ensures forall i, j :: 0 <= i < j < |r| ==> StrLe(r[i].nome, r[j].nome)
  {
    StrLePreorderBy(NameLe, (p: Person) => p.nome);
    SortBy(pessoas, NameLe)
  }

  /** The search test: the lower-cased term occurs in the lower-cased name or document,
      an absent or empty document reading as "". */
  predicate Matches(p: Person, term: string)
  {
    || Contains(LowerStr(p.nome), LowerStr(term))
    || Contains(LowerStr(if Truthy(p.documento) then p.documento.value else ""), LowerStr(term))
  }

  /** `filteredPessoas`: an empty term shows the whole list; otherwise the people that
      match, in list order. */
  function Search(pessoas: seq<Person>, term: string): (r: seq<Person>)
    ensures term == "" ==> r == pessoas
    ensures term != "" ==> forall p :: p in r <==> p in pessoas && Matches(p, term)
    ensures IsSubsequence(r, pessoas)
  {
    if term == "" then
      SubsequenceReflexive(pessoas);
      pessoas
    else
      FilterIsSubsequence(pessoas, (p: Person) => Matches(p, term));
      Filter(pessoas, (p: Person) => Matches(p, term))
  }

  /** Searching the sorted list keeps it sorted by name. */
  lemma SearchKeepsNameOrder(pessoas: seq<Person>, term: string)
    ensures var r := Search(SortByName(pessoas), term);
      forall i, j :: 0 <= i < j < |r| ==> StrLe(r[i].nome, r[j].nome)
  {
    var sorted := SortByName(pessoas);
    assert Sorted(sorted, NameLe);
    if term != "" {
      FilterKeepsSorted(sorted, (p: Person) => Matches(p, term), NameLe);
    }
  }

  /** `!item.ativo`: the '(INATIVO)' marker shows unless the flag is stored as true. */
  predicate ShowsInactive(p: Person)
  {
    p.ativo != Some(true)
  }

  /** The marker disagrees with the `ativo !== false` rule of the other screens exactly
      for records without a flag: they are listed as inactive yet can borrow keys. */
  lemma MarkerDisagreesOnlyWithoutFlag(p: Person)
    ensures (ShowsInactive(p) == !IsActive(p.ativo)) <==> p.ativo.Some?
    ensures p.ativo.None? ==> ShowsInactive(p) && IsActive(p.ativo)
  {
    match p.ativo {
      case None =>
      case Some(b) => assert ShowsInactive(p) <==> !b;
    }
  }
}

=== FILE: nova_chave.dfy ===
/** The key registration screen's save (`salvarChave`). The profile picker it shares with
    the key edit screen is in `ProfileSelection`. */
module NovaChave {
  import opened Wrappers
  import opened Text
  import opened Records
  import NovoEmprestimo
  import ProfileSelection

  /** The alerts shown instead of saving, in the order they are checked. */
  datatype KeyError = NameRequired | ProfileRequired

  /** The key `salvarChave` appends: the name as typed (it is only trimmed for the test),
      the description, the chosen profiles, active. */
  function NewKey(nome: string, descricao: string, perfis: seq<string>, newId: Id): Key
  {
    Key(newId, nome, Some(descricao), Some(perfis), Some(true))
  }

  /** `salvarChave`: a blank name is rejected first, then an empty profile list; otherwise
      the new key is appended and the stored keys are unchanged. */
  function Save(nome: string, descricao: string, perfis: seq<string>, chaves: seq<Key>, newId: Id)
    : (r: Result<seq<Key>, KeyError>)
    ensures r == Failure(NameRequired) <==> IsBlank(nome)
    ensures r == Failure(ProfileRequired) <==> !IsBlank(nome) && |perfis| == 0
    ensures r.Success? ==>
      && |r.value| == |chaves| + 1
      && r.value[..|chaves|] == chaves
      && r.value[|chaves|] == Key(newId, nome, Some(descricao), Some(perfis), Some(true))
  {
    if IsBlank(nome) then Failure(NameRequired)
    else if |perfis| == 0 then Failure(ProfileRequired)
    else Success(chaves + [NewKey(nome, descricao, perfis, newId)])
  }

  /** A saved key always names its profiles, so the loan screen offers it exactly to people
      whose profile is on the list, never to everybody. */
  lemma SavedKeyIsRestricted(nome: string, descricao: string, perfis: seq<string>, chaves: seq<Key>,
                             newId: Id, perfil: Option<string>)
    requires Save(nome, descricao, perfis, chaves, newId).Success?
    ensures NovoEmprestimo.ProfileAllows(NewKey(nome, descricao, perfis, newId), perfil)
            <==> perfil.Some? && perfil.value in perfis
  {
  }

  /** A new key with a fresh id is offered, right after saving, to every person whose
      profile it lists: no loan can name it yet. */
  lemma SavedKeyIsOffered(nome: string, descricao: string, perfis: seq<string>, chaves: seq<Key>,
                          newId: Id, emprestimos: seq<Loan>, pessoa: Person)
    requires Save(nome, descricao, perfis, chaves, newId).Success?
    requires forall l :: l in emprestimos ==> l.chaveId != newId
    requires pessoa.perfil.Some? && pessoa.perfil.value in perfis
    ensures NewKey(nome, descricao, perfis, newId)
            in NovoEmprestimo.OfferedKeys(Save(nome, descricao, perfis, chaves, newId).value, emprestimos, pessoa)
  {
    var r := Save(nome, descricao, perfis, chaves, newId).value;
    assert r[|chaves|] in r;
  }

  /** Whatever the picker produced from its empty start, a saved key's profile list is a
      duplicate-free, non-empty selection of the five profiles. */
  lemma SavedProfilesWellFormed(nome: string, descricao: string, actions: seq<ProfileSelection.Action>,
                                chaves: seq<Key>, newId: Id)
    requires forall i :: 0 <= i < |actions| && actions[i].TapProfile? ==> actions[i].perfil in PERFIS
    requires Save(nome, descricao, ProfileSelection.Apply([], actions), chaves, newId).Success?
    ensures var k := Save(nome, descricao, ProfileSelection.Apply([], actions), chaves, newId).value[|chaves|];
      && k.perfisPermitidos.Some?
      && |k.perfisPermitidos.value| > 0
      && ProfileSelection.WellFormed(k.perfisPermitidos.value)
  {
    ProfileSelection.ApplyKeepsWellFormed([], actions);
  }
}

=== FILE: nova_pessoa.dfy ===
/** The person registration screen: required fields, the duplicate-document check and
    appending the new person. */
module NovaPessoa {
  import opened Wrappers
  import opened Seqs
  import opened Text
  import opened Records
  import NovoEmprestimo

  /** The form as typed: name and document text, chosen photo and profile. */
  datatype Form = Form(nome: string, documento: string, foto: Option<string>, perfil: Option<string>)

  /** The alerts shown instead of saving. */
  datatype PersonError = MissingFields | DuplicateDocument

  /** The document key the duplicate check compares: trimmed and lower-cased. A stored
      person whose document is absent or empty has no key. */
  function DocKey(p: Person): (r: Option<string>)
    ensures r.Some? <==> p.documento.Some? && p.documento.value != ""
  {
    if Truthy(p.documento) then Some(LowerStr(Trim(p.documento.value))) else None
  }

  /** No two stored people share a document key. */
  predicate DocumentsUnique(pessoas: seq<Person>)
  {
    forall i, j :: 0 <= i < j < |pessoas| && DocKey(pessoas[i]).Some? ==> DocKey(pessoas[i]) != DocKey(pessoas[j])
  }

  /** Some stored person's document key is `key`. */
  predicate HasDocument(pessoas: seq<Person>, key: string)
  {
    exists p :: p in pessoas && DocKey(p) == Some(key)
  }

  /** The first validation: a blank name or document, or no profile or photo. */
  predicate MissingRequired(f: Form)
  {
    IsBlank(f.nome) || IsBlank(f.documento) || !Truthy(f.perfil) || !Truthy(f.foto)
  }

  /** The person `salvarPessoa` appends. */
  function NewPerson(f: Form, newId: Id): Person
  {
    Person(newId, Trim(f.nome), Some(Trim(f.documento)), f.foto, f.perfil, Some(true), None)
  }

  /** `salvarPessoa`: rejects missing fields, then a document some stored person already
      has (ignoring case and surrounding whitespace); otherwise appends the new person. */
  function Save(f: Form, pessoas: seq<Person>, newId: Id): (r: Result<seq<Person>, PersonError>)
    ensures r == Failure(MissingFields) <==> MissingRequired(f)
    ensures r == Failure(DuplicateDocument) <==>
      && !MissingRequired(f)
      && exists p :: p in pessoas && p.documento.Some? && p.documento.value != ""
                     && LowerStr(Trim(p.documento.value)) == LowerStr(Trim(f.documento))
    ensures r.Success? ==>
      && |r.value| == |pessoas| + 1
      && r.value[..|pessoas|] == pessoas
      && r.value[|pessoas|] == Person(newId, Trim(f.nome), Some(Trim(f.documento)), f.foto, f.perfil, Some(true), None)
  {
    if MissingRequired(f) then Failure(MissingFields)
    else if HasDocument(pessoas, LowerStr(Trim(f.documento))) then Failure(DuplicateDocument)
    else Success(pessoas + [NewPerson(f, newId)])
  }

  /** The new person's document key is the typed document, trimmed and lower-cased. */
  lemma NewPersonKey(f: Form, newId: Id)
    requires !MissingRequired(f)
    ensures DocKey(NewPerson(f, newId)) == Some(LowerStr(Trim(f.documento)))
  {
    TrimIdempotent(f.documento);
  }

  /** A successful registration keeps stored document keys pairwise different. */
  lemma SaveKeepsDocumentsUnique(f: Form, pessoas: seq<Person>, newId: Id)
    requires DocumentsUnique(pessoas)
    requires Save(f, pessoas, newId).Success?
    ensures DocumentsUnique(Save(f, pessoas, newId).value)
  {
    var r := Save(f, pessoas, newId).value;
    var n := |pessoas|;
    NewPersonKey(f, newId);
    forall i, j | 0 <= i < j < |r| && DocKey(r[i]).Some? ensures DocKey(r[i]) != DocKey(r[j]) {
      assert r[i] == pessoas[i];
      if j == n {
        assert pessoas[i] in pessoas;
      } else {
        assert r[j] == pessoas[j];
      }
    }
  }

  /** Stored people without a document never make a registration a duplicate: adding any
      number of them to storage does not change the verdict. */
  lemma UndocumentedNeverDuplicate(f: Form, pessoas: seq<Person>, extra: seq<Person>, newId: Id)
    requires forall p :: p in extra ==> !Truthy(p.documento)
    ensures Save(f, pessoas + extra, newId).Failure? == Save(f, pessoas, newId).Failure?
  {
    var k := LowerStr(Trim(f.documento));
    if HasDocument(pessoas + extra, k) {
      var p :| p in pessoas + extra && DocKey(p) == Some(k);
      assert p in pessoas;
    }
    if HasDocument(pessoas, k) {
      var p :| p in pessoas && DocKey(p) == Some(k);
      assert p in pessoas + extra;
    }
    assert HasDocument(pessoas + extra, k) == HasDocument(pessoas, k);
  }

  /** The registered person is active, so the loan screen lists them for selection. */
  lemma SavedPersonIsSelectable(f: Form, pessoas: seq<Person>, newId: Id)
    requires Save(f, pessoas, newId).Success?
    ensures NewPerson(f, newId) in NovoEmprestimo.SelectablePeople(Save(f, pessoas, newId).value)
  {
    var r := Save(f, pessoas, newId).value;
    assert r[|pessoas|] in r;
  }
}

=== FILE: novo_emprestimo.dfy ===
/** The loan screen: which people and keys can be picked, the modal search, and
    registering a new open loan. */
module NovoEmprestimo {
  import opened Wrappers
  import opened Seqs
  import opened Text
  import opened Records

  /** The screen's selection state: chosen person and chosen key. */
  datatype Form = Form(pessoa: Option<Person>, chave: Option<Key>)

  const EmptyForm: Form := Form(None, None)

  /** The alerts shown instead of acting. */
  datatype LoanError = SelectPersonFirst | SelectionRequired

  /** People offered for selection: everyone not explicitly deactivated, in stored order. */
  function SelectablePeople(pessoas: seq<Person>): (r: seq<Person>)
    ensures forall p :: p in r <==> p in pessoas && IsActive(p.ativo)
    ensures IsSubsequence(r, pessoas)
  {
    FilterIsSubsequence(pessoas, (p: Person) => IsActive(p.ativo));
    Filter(pessoas, (p: Person) => IsActive(p.ativo))
  }

  /** Keys loaded by the screen: every key not explicitly deactivated, in stored order. */
  function LoadedKeys(chaves: seq<Key>): (r: seq<Key>)
    ensures forall c :: c in r <==> c in chaves && IsActive(c.ativo)
    ensures IsSubsequence(r, chaves)
  {
    FilterIsSubsequence(chaves, (c: Key) => IsActive(c.ativo));
    Filter(chaves, (c: Key) => IsActive(c.ativo))
  }

  /** The key's profile list admits the person's profile; a key with no list, or an
      empty one, admits everybody. */
  predicate ProfileAllows(chave: Key, perfil: Option<string>)
  {
    || chave.perfisPermitidos.None?
    || |chave.perfisPermitidos.value| == 0
    || (perfil.Some? && perfil.value in chave.perfisPermitidos.value)
  }

  /** The keys the picker offers to `pessoa`: loaded keys without an open loan whose
      profile list admits the person. */
  function OfferedKeys(chaves: seq<Key>, emprestimos: seq<Loan>, pessoa: Person): (r: seq<Key>)
    ensures forall c :: c in r <==>
      && c in chaves
      && IsActive(c.ativo)
      && (forall l :: l in emprestimos && IsOpen(l) ==> l.chaveId != c.id)
      && ProfileAllows(c, pessoa.perfil)
  {
    var lent := LentKeyIds(emprestimos);
    var notLent := Filter(LoadedKeys(chaves), (c: Key) => c.id !in lent);
    Filter(notLent, (c: Key) => ProfileAllows(c, pessoa.perfil))
  }

  /** Choosing a person replaces the selected person and clears the selected key. */
  function SelectPerson(f: Form, p: Person): (r: Form)
    ensures r.pessoa == Some(p) && r.chave == None
  {
    Form(Some(p), None)
  }

  /** Choosing a key keeps the selected person. */
  function SelectKey(f: Form, c: Key): (r: Form)
    ensures r.pessoa == f.pessoa && r.chave == Some(c)
  {
    f.(chave := Some(c))
  }

  /** Opening the key picker: refused without a selected person, otherwise the offered keys. */
  function OpenKeyPicker(f: Form, chaves: seq<Key>, emprestimos: seq<Loan>): (r: Result<seq<Key>, LoanError>)
    ensures r.Failure? <==> f.pessoa.None?
    ensures r.Failure? ==> r.error == SelectPersonFirst
    ensures r.Success? ==> forall c :: c in r.value ==> c in chaves && IsActive(c.ativo)
  {
    match f.pessoa
    case None => Failure(SelectPersonFirst)
    case Some(p) => Success(OfferedKeys(chaves, emprestimos, p))
  }

  /** The modal's search test: the lower-cased term occurs in the lower-cased name or
      document, an absent one reading as "". */
  predicate ModalMatches(nome: Option<string>, documento: Option<string>, term: string)
  {
    || Contains(LowerStr(nome.GetOr("")), LowerStr(term))
    || Contains(LowerStr(documento.GetOr("")), LowerStr(term))
  }

  /** The person picker filtered by the search term. */
  function FilterPeopleModal(items: seq<Person>, term: string): (r: seq<Person>)
    ensures forall p :: p in r <==> p in items && ModalMatches(Some(p.nome), p.documento, term)
    ensures term == "" ==> r == items
  {
    var keep := (p: Person) => ModalMatches(Some(p.nome), p.documento, term);
    if term == "" then
      assert forall i :: 0 <= i < |items| ==> keep(items[i]) by {
        forall i | 0 <= i < |items| ensures keep(items[i]) {
          ContainsEmpty(LowerStr(items[i].nome));
        }
      }
      FilterKeepsAll(items, keep);
      Filter(items, keep)
    else
      Filter(items, keep)
  }

  /** The key picker filtered by the search term; keys carry no document. */
  function FilterKeysModal(items: seq<Key>, term: string): (r: seq<Key>)
    ensures forall c :: c in r <==> c in items && ModalMatches(Some(c.nome), None, term)
    ensures term == "" ==> r == items
  {
    var keep := (c: Key) => ModalMatches(Some(c.nome), None, term);
    if term == "" then
      assert forall i :: 0 <= i < |items| ==> keep(items[i]) by {
        forall i | 0 <= i < |items| ensures keep(items[i]) {
          ContainsEmpty(LowerStr(items[i].nome));
        }
      }
      FilterKeepsAll(items, keep);
      Filter(items, keep)
    else
      Filter(items, keep)
  }

  /** Registering the loan: without both selections nothing is written; otherwise one open
      loan for the selected person and key is appended to the stored list. */
  function Register(f: Form, emprestimos: seq<Loan>, newId: Id, now: int): (r: Result<seq<Loan>, LoanError>)
    ensures r.Failure? <==> f.pessoa.None? || f.chave.None?
    ensures r.Failure? ==> r.error == SelectionRequired
    ensures r.Success? ==>
      && |r.value| == |emprestimos| + 1
      && r.value[..|emprestimos|] == emprestimos
      && r.value[|emprestimos|] == Loan(newId, f.pessoa.value.id, f.chave.value.id, now, false, None)
  {
    if f.pessoa.None? || f.chave.None? then Failure(SelectionRequired)
    else
      var novo := Loan(newId, f.pessoa.value.id, f.chave.value.id, now, false, None);
      Success(emprestimos + [novo])
  }

  /** Registering a key taken from the offered list keeps at most one open loan per key.
      The list the picker saw is the list the registration re-reads. */
  lemma RegisterOfferedKeepsOneOpen(f: Form, chaves: seq<Key>, emprestimos: seq<Loan>, newId: Id, now: int)
    requires AtMostOneOpenPerKey(emprestimos)
    requires f.pessoa.Some? && f.chave.Some?
    requires f.chave.value in OfferedKeys(chaves, emprestimos, f.pessoa.value)
    ensures Register(f, emprestimos, newId, now).Success?
    ensures AtMostOneOpenPerKey(Register(f, emprestimos, newId, now).value)
  {
    var r := Register(f, emprestimos, newId, now).value;
    var n := |emprestimos|;
    forall i, j | 0 <= i < j < |r| && IsOpen(r[i]) && IsOpen(r[j])
      ensures r[i].chaveId != r[j].chaveId
    {
      if j == n {
        assert r[i] == emprestimos[i];
        assert emprestimos[i] in emprestimos;
      } else {
        assert r[i] == emprestimos[i] && r[j] == emprestimos[j];
      }
    }
  }

  /** The whole screen flow: pick a person, open the picker, search, pick a key, register.
      The result keeps at most one open loan per key. */
  lemma PickedKeyKeepsOneOpen(pessoa: Person, chaves: seq<Key>, emprestimos: seq<Loan>,
                              term: string, chave: Key, newId: Id, now: int)
    requires AtMostOneOpenPerKey(emprestimos)
    requires OpenKeyPicker(SelectPerson(EmptyForm, pessoa), chaves, emprestimos).Success?
    requires chave in FilterKeysModal(OpenKeyPicker(SelectPerson(EmptyForm, pessoa), chaves, emprestimos).value, term)
    ensures Register(SelectKey(SelectPerson(EmptyForm, pessoa), chave), emprestimos, newId, now).Success?
    ensures AtMostOneOpenPerKey(Register(SelectKey(SelectPerson(EmptyForm, pessoa), chave), emprestimos, newId, now).value)
  {
    RegisterOfferedKeepsOneOpen(SelectKey(SelectPerson(EmptyForm, pessoa), chave), chaves, emprestimos, newId, now);
  }

  /** Registration itself does not re-check: a key that already has an open loan gets a second one. */
  lemma RegisterDoesNotRecheck()
    ensures var open := Loan("1", "p", "k", 0, false, None);
            var f := Form(Some(Person("p", "Ana", None, None, None, None, None)),
                          Some(Key("k", "Sala 1", None, None, None)));
            && AtMostOneOpenPerKey([open])
            && Register(f, [open], "2", 1).Success?
            && !AtMostOneOpenPerKey(Register(f, [open], "2", 1).value)
  {
    var open := Loan("1", "p", "k", 0, false, None);
    var f := Form(Some(Person("p", "Ana", None, None, None, None, None)),
                  Some(Key("k", "Sala 1", None, None, None)));
    var r := Register(f, [open], "2", 1).value;
    assert r[0].chaveId == r[1].chaveId;
  }
}

=== FILE: profile_selection.dfy ===
/** The allowed-profile picker shared by the key creation and key edit screens:
    `togglePerfil` and `selecionarTodos` over the five profiles. */
module ProfileSelection {
  import opened Seqs
  import opened Records

  /** What the picker can do: tap one profile, or tap 'select all'. */
  datatype Action = TapProfile(perfil: string) | TapSelectAll

  /** The picker's invariant: no profile twice, and only the five known profiles. */
  predicate WellFormed(sel: seq<string>)
  {
    Distinct(sel) && forall p :: p in sel ==> p in PERFIS
  }

  /** Every known profile is selected. */
  predicate AllSelected(sel: seq<string>)
  {
    forall p :: p in PERFIS ==> p in sel
  }

  /** `togglePerfil`: a selected profile is removed, any other is appended. */
  function ToggleProfile(sel: seq<string>, perfil: string): (r: seq<string>)
    ensures perfil in sel ==> perfil !in r && forall p :: p != perfil ==> (p in r <==> p in sel)
    ensures perfil !in sel ==> r == sel + [perfil]
  {
    Toggle(sel, perfil)
  }

  /** `selecionarTodos`: when the list is as long as the profile list it is cleared,
      otherwise every profile is selected in the canonical order. */
  function SelectAll(sel: seq<string>): (r: seq<string>)
    ensures r == [] || r == PERFIS
  {
    if |sel| == |PERFIS| then [] else PERFIS
  }

  /** The picker state after a series of taps. */
  function Apply(sel: seq<string>, actions: seq<Action>): seq<string>
    decreases |actions|
  {
    if |actions| == 0 then sel
    else
      var next := match actions[0]
        case TapProfile(p) => ToggleProfile(sel, p)
        case TapSelectAll => SelectAll(sel);
      Apply(next, actions[1..])
  }

  /** Tapping only the profiles the screen lists, from any well-formed start (the screens
      start from `[]`), keeps the selection duplicate-free and within the five profiles. */
  lemma {:induction false} ApplyKeepsWellFormed(sel: seq<string>, actions: seq<Action>)
    requires WellFormed(sel)
    requires forall i :: 0 <= i < |actions| && actions[i].TapProfile? ==> actions[i].perfil in PERFIS
    ensures WellFormed(Apply(sel, actions))
    decreases |actions|
  {
    if |actions| > 0 {
      var next := match actions[0]
        case TapProfile(p) => ToggleProfile(sel, p)
        case TapSelectAll => SelectAll(sel);
      match actions[0] {
        case TapProfile(p) => ToggleKeepsDistinct(sel, p);
        case TapSelectAll => assert Distinct(PERFIS);
      }
      assert WellFormed(next);
      ApplyKeepsWellFormed(next, actions[1..]);
    }
  }

  /** A subset is no larger than its superset. */
  lemma {:induction false} SubsetCardinality<T>(a: set<T>, b: set<T>)
    requires a <= b
    ensures |a| <= |b|
    decreases |b|
  {
    if b != {} {
      var x :| x in b;
      SubsetCardinality(a - {x}, b - {x});
    }
  }

  /** For a well-formed selection the length test of `selecionarTodos` means exactly
      "every profile is selected". */
  lemma FullLengthIffAllSelected(sel: seq<string>)
    requires WellFormed(sel)
    ensures |sel| == |PERFIS| <==> AllSelected(sel)
  {
    assert Distinct(PERFIS);
    DistinctCardinality(PERFIS);
    DistinctCardinality(sel);
    SubsetCardinality(Elems(sel), Elems(PERFIS));
    if |sel| == |PERFIS| && !AllSelected(sel) {
      var p :| p in PERFIS && p !in sel;
      SubsetCardinality(Elems(sel), Elems(PERFIS) - {p});
      assert false;
    }
    if AllSelected(sel) {
      SubsetCardinality(Elems(PERFIS), Elems(sel));
    }
  }

  /** 'Select all' clears a complete selection and completes any other one. */
  lemma SelectAllSwitches(sel: seq<string>)
    requires WellFormed(sel)
    ensures AllSelected(sel) ==> SelectAll(sel) == []
    ensures !AllSelected(sel) ==> AllSelected(SelectAll(sel)) && WellFormed(SelectAll(sel))
  {
    FullLengthIffAllSelected(sel);
    assert Distinct(PERFIS);
  }
}

=== FILE: records.dfy ===
/** The records the client keeps in its three AsyncStorage lists ('pessoas', 'chaves',
    'emprestimos') and the access profiles it receives from the server. Every field the
    JSON may lack is an `Option`. Ids are `Date.now()` strings. */
module Records {
  import opened Wrappers
  import opened Seqs

  type Id = string

  /** The five access profiles a person or key can name. */
  const PERFIS: seq<string> := ["Professores", "Alunos", "Funcionários", "Terceirizados", "Servidores"]

  /** A person allowed to borrow keys ("pessoa"). */
  datatype Person = Person(
    id: Id,
    nome: string,
    documento: Option<string>,
    foto: Option<string>,
    perfil: Option<string>,
    ativo: Option<bool>,
    telefone: Option<string>)

  /** A physical key ("chave"); an absent or empty `perfisPermitidos` means open to every profile. */
  datatype Key = Key(
    id: Id,
    nome: string,
    descricao: Option<string>,
    perfisPermitidos: Option<seq<string>>,
    ativo: Option<bool>)

  /** A loan ("empréstimo"); `data` and `dataDevolucao` are instants in milliseconds.
      A stored loan without `devolvido` is read as not returned, hence `bool`. */
  datatype Loan = Loan(
    id: Id,
    pessoaId: Id,
    chaveId: Id,
    data: int,
    devolvido: bool,
    dataDevolucao: Option<int>)

  /** One entry of a profile's `dias_semana` JSON list: a number or a string. */
  datatype DayEntry = DayNum(n: int) | DayText(s: string)

  /** An access profile as the server returns it ("perfil"). */
  datatype Profile = Profile(
    id: Id,
    nome: string,
    horaInicio: Option<string>,
    horaFim: Option<string>,
    diasSemana: Option<seq<DayEntry>>)

  /** `x.ativo !== false`: an absent flag counts as active. */
  predicate IsActive(ativo: Option<bool>)
  {
    ativo != Some(false)
  }

  /** JavaScript truthiness of an optional string: present and non-empty. */
  predicate Truthy(s: Option<string>)
  {
    s.Some? && s.value != ""
  }

  /** The loan has not been returned (`!e.devolvido`). */
  predicate IsOpen(l: Loan)
  {
    !l.devolvido
  }

  /** The ledger's central invariant: no key has two open loans. */
  ghost predicate AtMostOneOpenPerKey(loans: seq<Loan>)
  {
    forall i, j :: 0 <= i < j < |loans| && IsOpen(loans[i]) && IsOpen(loans[j])
      ==> loans[i].chaveId != loans[j].chaveId
  }

  /** The open loans, in stored order (`emprestimos.filter(e => !e.devolvido)`): the return
      screen's pending list and the report's 'Emprestadas'. */
  function OpenLoans(loans: seq<Loan>): (r: seq<Loan>)
    ensures forall l :: l in r <==> l in loans && !l.devolvido
    ensures IsSubsequence(r, loans)
  {
    FilterIsSubsequence(loans, IsOpen);
    Filter(loans, IsOpen)
  }

  /** The ids of keys that are currently lent (`... .map(e => e.chaveId)`). */
  function LentKeyIds(loans: seq<Loan>): (r: seq<Id>)
    ensures forall k :: k in r <==> exists l :: l in loans && IsOpen(l) && l.chaveId == k
  {
    var open := OpenLoans(loans);
    var r := Map(open, (l: Loan) => l.chaveId);
    assert forall k :: k in r ==> exists l :: l in loans && IsOpen(l) && l.chaveId == k by {
      forall k | k in r ensures exists l :: l in loans && IsOpen(l) && l.chaveId == k {
        var i :| 0 <= i < |r| && r[i] == k;
        assert open[i] in open;
      }
    }
    assert forall l :: l in loans && IsOpen(l) ==> l.chaveId in r by {
      forall l | l in loans && IsOpen(l) ensures l.chaveId in r {
        var i :| 0 <= i < |open| && open[i] == l;
        assert r[i] == l.chaveId;
      }
    }
    r
  }

  /** The first stored person with this id (`pessoas.find(p => p.id === id)`). */
  function FindPerson(pessoas: seq<Person>, id: Id): (r: Option<Person>)
    ensures r.None? <==> forall p :: p in pessoas ==> p.id != id
    ensures r.Some? ==> exists i :: 0 <= i < |pessoas| && pessoas[i] == r.value && r.value.id == id
                          && forall j :: 0 <= j < i ==> pessoas[j].id != id
  {
    if |pessoas| == 0 then None
    else if pessoas[0].id == id then Some(pessoas[0])
    else
      var r := FindPerson(pessoas[1..], id);
      assert r.Some? ==> (exists i :: 0 <= i < |pessoas| && pessoas[i] == r.value
                                     && forall j :: 0 <= j < i ==> pessoas[j].id != id) by {
        if r.Some? {
          var i :| 0 <= i < |pessoas[1..]| && pessoas[1..][i] == r.value
            && forall j :: 0 <= j < i ==> pessoas[1..][j].id != id;
          assert pessoas[i + 1] == r.value;
          assert forall j :: 0 <= j < i + 1 ==> pessoas[j].id != id by {
            forall j | 0 <= j < i + 1 ensures pessoas[j].id != id {
              if j > 0 { assert pessoas[j] == pessoas[1..][j - 1]; }
            }
          }
        }
      }
      r
  }

  /** The first stored key with this id (`chaves.find(c => c.id === id)`). */
  function FindKey(chaves: seq<Key>, id: Id): (r: Option<Key>)
    ensures r.None? <==> forall c :: c in chaves ==> c.id != id
    ensures r.Some? ==> exists i :: 0 <= i < |chaves| && chaves[i] == r.value && r.value.id == id
                          && forall j :: 0 <= j < i ==> chaves[j].id != id
  {
    if |chaves| == 0 then None
    else if chaves[0].id == id then Some(chaves[0])
    else
      var r := FindKey(chaves[1..], id);
      assert r.Some? ==> (exists i :: 0 <= i < |chaves| && chaves[i] == r.value
                                     && forall j :: 0 <= j < i ==> chaves[j].id != id) by {
        if r.Some? {
          var i :| 0 <= i < |chaves[1..]| && chaves[1..][i] == r.value
            && forall j :: 0 <= j < i ==> chaves[1..][j].id != id;
          assert chaves[i + 1] == r.value;
          assert forall j :: 0 <= j < i + 1 ==> chaves[j].id != id by {
            forall j | 0 <= j < i + 1 ensures chaves[j].id != id {
              if j > 0 { assert chaves[j] == chaves[1..][j - 1]; }
            }
          }
        }
      }
      r
  }
}

=== FILE: relatorio.dfy ===
/** The report screen: open loans, available keys and the two dashboard counters. */
module Relatorio {
  import opened Wrappers
  import opened Seqs
  import opened Records

  /** A key is lent when some open loan names its id. */
  ghost predicate IsLent(chave: Key, emprestimos: seq<Loan>)
  {
    exists l :: l in emprestimos && IsOpen(l) && l.chaveId == chave.id
  }

  /** 'Disponíveis': stored keys no open loan names, in stored order; inactive keys are
      not excluded. */
  function AvailableKeys(chaves: seq<Key>, emprestimos: seq<Loan>): (r: seq<Key>)
    ensures forall c :: c in r <==> c in chaves && !IsLent(c, emprestimos)
    ensures IsSubsequence(r, chaves)
  {
    var lent := LentKeyIds(emprestimos);
    FilterIsSubsequence(chaves, (c: Key) => c.id !in lent);
    Filter(chaves, (c: Key) => c.id !in lent)
  }

  /** Every stored key is either available or named by an open loan, never both. */
  lemma KeysPartition(chaves: seq<Key>, emprestimos: seq<Loan>, c: Key)
    requires c in chaves
    ensures c in AvailableKeys(chaves, emprestimos) <==> !IsLent(c, emprestimos)
  {
  }

  /** No two open loans name the same key, so the lent-key ids are duplicate-free. */
  lemma LentKeyIdsDistinct(emprestimos: seq<Loan>)
    requires AtMostOneOpenPerKey(emprestimos)
    ensures Distinct(LentKeyIds(emprestimos))
  {
    OpenLoansNameDistinctKeys(emprestimos);
  }

  /** The invariant read on the open list: its loans name pairwise different keys. */
  lemma {:induction false} OpenLoansNameDistinctKeys(emprestimos: seq<Loan>)
    requires AtMostOneOpenPerKey(emprestimos)
    ensures forall a, b :: 0 <= a < b < |OpenLoans(emprestimos)| ==>
              OpenLoans(emprestimos)[a].chaveId != OpenLoans(emprestimos)[b].chaveId
  {
    if |emprestimos| > 0 {
      var tail := emprestimos[1..];
      assert AtMostOneOpenPerKey(tail) by {
        forall i, j | 0 <= i < j < |tail| && IsOpen(tail[i]) && IsOpen(tail[j])
          ensures tail[i].chaveId != tail[j].chaveId
        {
          assert tail[i] == emprestimos[i + 1] && tail[j] == emprestimos[j + 1];
        }
      }
      OpenLoansNameDistinctKeys(tail);
      var open := OpenLoans(emprestimos);
      var openTail := OpenLoans(tail);
      if IsOpen(emprestimos[0]) {
        assert open == [emprestimos[0]] + openTail;
        forall a, b | 0 <= a < b < |open| ensures open[a].chaveId != open[b].chaveId {
          if a == 0 {
            assert open[b] in openTail;
            var j :| 0 <= j < |tail| && tail[j] == open[b];
            assert emprestimos[j + 1] == open[b];
          } else {
            assert open[a] == openTail[a - 1] && open[b] == openTail[b - 1];
          }
        }
      } else {
        assert open == openTail;
      }
    }
  }

  /** A key's id, as a function value for `Map`. */
  function KeyId(c: Key): Id
  {
    c.id
  }

  /** Every lent key id is the id of some lent stored key, when every open loan names a
      stored key. */
  lemma LentIdsAreStoredKeys(chaves: seq<Key>, emprestimos: seq<Loan>, taken: Key -> bool)
    requires forall c :: taken(c) == (c.id in LentKeyIds(emprestimos))
    requires forall l :: l in emprestimos && IsOpen(l) ==> exists c :: c in chaves && c.id == l.chaveId
    ensures forall k :: k in LentKeyIds(emprestimos) ==> k in Map(Filter(chaves, taken), KeyId)
  {
    forall k | k in LentKeyIds(emprestimos) ensures k in Map(Filter(chaves, taken), KeyId) {
      var l :| l in emprestimos && IsOpen(l) && l.chaveId == k;
      var c :| c in chaves && c.id == l.chaveId;
      TakenKeyIdListed(chaves, taken, c);
    }
  }

  /** A stored key the filter keeps has its id among the kept ids. */
  lemma TakenKeyIdListed(chaves: seq<Key>, taken: Key -> bool, c: Key)
    requires c in chaves && taken(c)
    ensures c.id in Map(Filter(chaves, taken), KeyId)
  {
    var lentKeys := Filter(chaves, taken);
    var i :| 0 <= i < |lentKeys| && lentKeys[i] == c;
    assert Map(lentKeys, KeyId)[i] == c.id;
  }

  /** The ids of the lent stored keys are lent key ids. */
  lemma LentStoredKeysAreLentIds(chaves: seq<Key>, emprestimos: seq<Loan>, taken: Key -> bool)
    requires forall c :: taken(c) == (c.id in LentKeyIds(emprestimos))
    ensures forall k :: k in Map(Filter(chaves, taken), KeyId) ==> k in LentKeyIds(emprestimos)
  {
    var lentKeys := Filter(chaves, taken);
    var ids := Map(lentKeys, KeyId);
    forall k | k in ids ensures k in LentKeyIds(emprestimos) {
      var i :| 0 <= i < |ids| && ids[i] == k;
      assert taken(lentKeys[i]);
    }
  }

  /** Under the one-open-loan-per-key invariant, with unique key ids and every open loan
      naming a stored key, the two counters add up to the number of stored keys. */
  lemma CountersAddUp(chaves: seq<Key>, emprestimos: seq<Loan>)
    requires AtMostOneOpenPerKey(emprestimos)
    requires Distinct(Map(chaves, KeyId))
    requires forall l :: l in emprestimos && IsOpen(l) ==> exists c :: c in chaves && c.id == l.chaveId
    ensures |AvailableKeys(chaves, emprestimos)| + |OpenLoans(emprestimos)| == |chaves|
  {
    var lent := LentKeyIds(emprestimos);
    var avail := (c: Key) => c.id !in lent;
    var taken := (c: Key) => c.id in lent;
    FilterSplitsLength(chaves, avail, taken);
    var ids := Map(Filter(chaves, taken), KeyId);
    FilterKeepsDistinctField(chaves, taken, KeyId);
    LentIdsAreStoredKeys(chaves, emprestimos, taken);
    LentStoredKeysAreLentIds(chaves, emprestimos, taken);
    assert Elems(ids) == Elems(lent);
    DistinctCardinality(ids);
    LentKeyIdsDistinct(emprestimos);
    DistinctCardinality(lent);
  }

  /** Without the invariant the counters can exceed the number of keys: one key with two
      open loans shows 0 available and 2 lent. */
  lemma CountersDisagreeWithTwoOpenLoans()
    ensures var chaves := [Key("k", "Sala 1", None, None, None)];
            var emprestimos := [Loan("1", "p", "k", 0, false, None), Loan("2", "q", "k", 1, false, None)];
            |AvailableKeys(chaves, emprestimos)| + |OpenLoans(emprestimos)| == 2
  {
    var chaves := [Key("k", "Sala 1", None, None, None)];
    var emprestimos := [Loan("1", "p", "k", 0, false, None), Loan("2", "q", "k", 1, false, None)];
    assert OpenLoans(emprestimos) == emprestimos;
    assert LentKeyIds(emprestimos) == ["k", "k"];
    assert AvailableKeys(chaves, emprestimos) == [];
  }

  /** An open loan whose key is no longer stored is counted as lent although no stored key is. */
  lemma CountersDisagreeWithDanglingLoan()
    ensures var chaves := [Key("k", "Sala 1", None, None, None)];
            var emprestimos := [Loan("1", "p", "x", 0, false, None)];
            |AvailableKeys(chaves, emprestimos)| + |OpenLoans(emprestimos)| == 2
  {
    var chaves := [Key("k", "Sala 1", None, None, None)];
    var emprestimos := [Loan("1", "p", "x", 0, false, None)];
    assert OpenLoans(emprestimos) == emprestimos;
    assert LentKeyIds(emprestimos) == ["x"];
    assert AvailableKeys(chaves, emprestimos) == chaves;
  }
}

=== FILE: seqs.dfy ===
/** Generic sequence operations the screens apply to their JSON lists:
    `Array.prototype.filter`, element toggling and distinctness. */
module Seqs {

  /** `s.filter(p)`: keeps exactly the elements satisfying `p`, in order. */
  function Filter<T(!new)>(s: seq<T>, p: T -> bool): (r: seq<T>)
    ensures |r| <= |s|
    ensures forall x :: x in r <==> x in s && p(x)
    ensures forall i :: 0 <= i < |r| ==> p(r[i])
  {
    if |s| == 0 then []
    else if p(s[0]) then [s[0]] + Filter(s[1..], p)
    else Filter(s[1..], p)
  }

  /** Filtering by two predicates that agree on the elements gives the same list. */
  lemma {:induction false} FilterCongruent<T(!new)>(s: seq<T>, p: T -> bool, q: T -> bool)
    requires forall x :: x in s ==> p(x) == q(x)
    ensures Filter(s, p) == Filter(s, q)
  {
    if |s| > 0 {
      FilterCongruent(s[1..], p, q);
    }
  }

  /** Filtering keeps every occurrence of an element satisfying `p`, and none other. */
  lemma {:induction false} FilterCount<T(!new)>(s: seq<T>, p: T -> bool, x: T)
    ensures multiset(Filter(s, p))[x] == if p(x) then multiset(s)[x] else 0
  {
    if |s| > 0 {
      FilterCount(s[1..], p, x);
      assert s == [s[0]] + s[1..];
      assert multiset(s) == multiset([s[0]]) + multiset(s[1..]);
      if p(s[0]) {
        assert multiset(Filter(s, p)) == multiset([s[0]]) + multiset(Filter(s[1..], p));
      } else {
        assert Filter(s, p) == Filter(s[1..], p);
      }
    }
  }

  /** Filtering two permutations of each other gives permutations of each other. */
  lemma FilterPermutation<T(!new)>(s: seq<T>, t: seq<T>, p: T -> bool)
    requires multiset(s) == multiset(t)
    ensures multiset(Filter(s, p)) == multiset(Filter(t, p))
  {
    forall x ensures multiset(Filter(s, p))[x] == multiset(Filter(t, p))[x] {
      FilterCount(s, p, x);
      FilterCount(t, p, x);
    }
  }

  /** `s.map(f)`. */
  function Map<T, U>(s: seq<T>, f: T -> U): (r: seq<U>)
    ensures |r| == |s|
    ensures forall i :: 0 <= i < |s| ==> r[i] == f(s[i])
  {
    if |s| == 0 then [] else [f(s[0])] + Map(s[1..], f)
  }

  /** `sub` can be obtained from `s` by deleting elements, keeping the rest in order. */
  predicate IsSubsequence<T(==)>(sub: seq<T>, s: seq<T>)
  {
    if |sub| == 0 then true
    else if |s| == 0 then false
    else if sub[0] == s[0] then IsSubsequence(sub[1..], s[1..])
    else IsSubsequence(sub, s[1..])
  }

  lemma {:induction false} FilterIsSubsequence<T(!new)>(s: seq<T>, p: T -> bool)
    ensures IsSubsequence(Filter(s, p), s)
  {
    if |s| > 0 {
      FilterIsSubsequence(s[1..], p);
      if p(s[0]) {
        assert Filter(s, p)[1..] == Filter(s[1..], p);
      } else {
        SubsequenceOfTail(Filter(s, p), s);
      }
    }
  }

  lemma {:induction false} SubsequenceOfTail<T(!new)>(sub: seq<T>, s: seq<T>)
    requires |s| > 0 && IsSubsequence(sub, s[1..])
    ensures IsSubsequence(sub, s)
    decreases |s|, 0
  {
    if |sub| > 0 && sub[0] == s[0] {
      SubsequenceDropHead(sub, s[1..]);
    }
  }

  lemma {:induction false} SubsequenceDropHead<T(!new)>(sub: seq<T>, s: seq<T>)
    requires |sub| > 0 && IsSubsequence(sub, s)
    ensures IsSubsequence(sub[1..], s)
    decreases |s|, 1
  {
    if sub[0] == s[0] {
      SubsequenceOfTail(sub[1..], s);
    } else {
      SubsequenceDropHead(sub, s[1..]);
      SubsequenceOfTail(sub[1..], s);
    }
  }

  /** A subsequence of a subsequence is a subsequence. */
  lemma {:induction false} SubsequenceTransitive<T(!new)>(a: seq<T>, b: seq<T>, c: seq<T>)
    requires IsSubsequence(a, b) && IsSubsequence(b, c)
    ensures IsSubsequence(a, c)
    decreases |c|
  {
    if |a| > 0 {
      if b[0] == c[0] && a[0] == b[0] {
        SubsequenceTransitive(a[1..], b[1..], c[1..]);
      } else if b[0] == c[0] {
        SubsequenceTransitive(a, b[1..], c[1..]);
        SubsequenceOfTail(a, c);
      } else {
        SubsequenceTransitive(a, b, c[1..]);
        SubsequenceOfTail(a, c);
      }
    }
  }

  /** A filter whose predicate holds everywhere returns the list itself
      (the screens' "empty search term keeps everything"). */
  lemma {:induction false} FilterKeepsAll<T(!new)>(s: seq<T>, p: T -> bool)
    requires forall i :: 0 <= i < |s| ==> p(s[i])
    ensures Filter(s, p) == s
  {
    if |s| > 0 {
      FilterKeepsAll(s[1..], p);
      assert s == [s[0]] + s[1..];
    }
  }

  /** Filtering by `p` and by its negation splits the list's length. */
  lemma {:induction false} FilterSplitsLength<T(!new)>(s: seq<T>, p: T -> bool, q: T -> bool)
    requires forall x :: q(x) == !p(x)
    ensures |Filter(s, p)| + |Filter(s, q)| == |s|
  {
    if |s| > 0 {
      FilterSplitsLength(s[1..], p, q);
    }
  }

  /** No element occurs twice. */
  predicate Distinct<T(==)>(s: seq<T>)
  {
    forall i, j :: 0 <= i < j < |s| ==> s[i] != s[j]
  }

  /** The set of elements of a sequence. */
  function Elems<T>(s: seq<T>): set<T>
  {
    set x | x in s
  }

  /** The distinct elements of `s`, each at its first occurrence. */
  function Dedup<T(==,!new)>(s: seq<T>): (r: seq<T>)
    ensures Distinct(r)
    ensures forall x :: x in r <==> x in s
    decreases |s|
  {
    if |s| == 0 then []
    else
      var rest := Dedup(Filter(s[1..], y => y != s[0]));
      assert s[0] !in rest;
      [s[0]] + rest
  }

  /** A duplicate-free sequence has as many elements as its set. */
  lemma {:induction false} DistinctCardinality<T(!new)>(s: seq<T>)
    requires Distinct(s)
    ensures |Elems(s)| == |s|
  {
    if |s| > 0 {
      DistinctCardinality(s[1..]);
      assert Elems(s) == Elems(s[1..]) + {s[0]};
      assert s[0] !in Elems(s[1..]);
    }
  }

  /** Membership toggle used by the profile and weekday pickers:
      `xs.includes(x) ? xs.filter(y => y !== x) : [...xs, x]`. */
  function Toggle<T(==,!new)>(xs: seq<T>, x: T): (r: seq<T>)
    ensures x in xs ==> x !in r && forall y :: y != x ==> (y in r <==> y in xs)
    ensures x !in xs ==> r == xs + [x]
  {
    if x in xs then Filter(xs, y => y != x) else xs + [x]
  }

  /** Toggling the same element twice restores membership of every element. */
  lemma ToggleTwiceRestoresMembership<T(!new)>(xs: seq<T>, x: T)
    ensures forall y :: y in Toggle(Toggle(xs, x), x) <==> y in xs
  {
  }

  /** Toggling keeps a duplicate-free list duplicate-free. */
  lemma {:induction false} ToggleKeepsDistinct<T(!new)>(xs: seq<T>, x: T)
    requires Distinct(xs)
    ensures Distinct(Toggle(xs, x))
  {
    if x in xs {
      FilterKeepsDistinct(xs, y => y != x);
    }
  }

  lemma {:induction false} FilterKeepsDistinct<T(!new)>(s: seq<T>, p: T -> bool)
    requires Distinct(s)
    ensures Distinct(Filter(s, p))
  {
    if |s| > 0 {
      FilterKeepsDistinct(s[1..], p);
      if p(s[0]) {
        assert s[0] !in s[1..];
        assert s[0] !in Filter(s[1..], p);
      }
    }
  }

  /** Every list is a subsequence of itself. */
  lemma {:induction false} SubsequenceReflexive<T(!new)>(s: seq<T>)
    ensures IsSubsequence(s, s)
  {
    if |s| > 0 {
      SubsequenceReflexive(s[1..]);
    }
  }

  /** If a field is unique across a list, it stays unique across any filtered part of it. */
  lemma {:induction false} FilterKeepsDistinctField<T(!new), U>(s: seq<T>, p: T -> bool, f: T -> U)
    requires Distinct(Map(s, f))
    ensures Distinct(Map(Filter(s, p), f))
  {
    if |s| > 0 {
      assert Map(s[1..], f) == Map(s, f)[1..];
      FilterKeepsDistinctField(s[1..], p, f);
      if p(s[0]) {
        var rest := Filter(s[1..], p);
        assert Filter(s, p) == [s[0]] + rest;
        forall i | 0 <= i < |rest| ensures f(rest[i]) != f(s[0]) {
          assert rest[i] in s[1..];
          var k :| 0 <= k < |s[1..]| && s[1..][k] == rest[i];
          assert Map(s, f)[k + 1] == f(rest[i]);
        }
        assert Map(Filter(s, p), f) == [f(s[0])] + Map(rest, f);
      }
    }
  }
}

=== FILE: sorting.dfy ===
/** `Array.prototype.sort` with a comparator, modelled as a stable insertion sort
    for a total preorder `le` ("`a` may come before `b`"). */
module Sorting {
  import opened Seqs

  /** `le` is a total preorder: every two elements are comparable and the order is transitive. */
  ghost predicate TotalPreorder<T(!new)>(le: (T, T) -> bool)
  {
    && (forall a, b :: le(a, b) || le(b, a))
    && (forall a, b, c :: le(a, b) && le(b, c) ==> le(a, c))
  }

  /** Every element may come before every later one. */
  ghost predicate Sorted<T>(s: seq<T>, le: (T, T) -> bool)
  {
    forall i, j :: 0 <= i < j < |s| ==> le(s[i], s[j])
  }

  /** Inserts `x` before the first element it may precede, so that `x` stays ahead
      of the elements it ties with. */
  function Insert<T(!new)>(x: T, s: seq<T>, le: (T, T) -> bool): (r: seq<T>)
    requires TotalPreorder(le)
    requires Sorted(s, le)
    ensures multiset(r) == multiset(s) + multiset{x}
    ensures Sorted(r, le)
  {
    if |s| == 0 then [x]
    else if le(x, s[0]) then
      assert forall j :: 0 <= j < |s| ==> le(x, s[j]) by {
        forall j | 0 <= j < |s| ensures le(x, s[j]) {
          if j > 0 { assert le(s[0], s[j]); }
        }
      }
      [x] + s
    else
      var rest := Insert(x, s[1..], le);
      HeadPrecedesInsert(x, s, le, rest);
      assert s == [s[0]] + s[1..];
      [s[0]] + rest
  }

  /** The head of a sorted list that `x` may not precede may precede everything the
      insertion into its tail produces. */
  lemma HeadPrecedesInsert<T(!new)>(x: T, s: seq<T>, le: (T, T) -> bool, rest: seq<T>)
    requires TotalPreorder(le)
    requires |s| > 0 && Sorted(s, le) && !le(x, s[0])
    requires multiset(rest) == multiset(s[1..]) + multiset{x}
    ensures forall j :: 0 <= j < |rest| ==> le(s[0], rest[j])
  {
    assert le(s[0], x);
    forall j | 0 <= j < |rest| ensures le(s[0], rest[j]) {
      var y := rest[j];
      assert y in multiset(rest);
      if y != x {
        assert y in multiset(s[1..]);
        var k :| 0 <= k < |s[1..]| && s[1..][k] == y;
        assert s[k + 1] == y;
      }
    }
  }

  /** The list sorted by `le`: a permutation of `s` in which every element may come
      before every later one. */
  function SortBy<T(!new)>(s: seq<T>, le: (T, T) -> bool): (r: seq<T>)
    requires TotalPreorder(le)
    ensures multiset(r) == multiset(s)
    ensures |r| == |s|
    ensures Sorted(r, le)
  {
    if |s| == 0 then []
    else
      assert s == [s[0]] + s[1..];
      Insert(s[0], SortBy(s[1..], le), le)
  }

  /** Sorting keeps exactly the elements of the input. */
  lemma SortByMembership<T(!new)>(s: seq<T>, le: (T, T) -> bool, x: T)
    requires TotalPreorder(le)
    ensures x in SortBy(s, le) <==> x in s
  {
    assert x in SortBy(s, le) <==> x in multiset(SortBy(s, le));
  }

  /** Removing elements from a sorted list leaves it sorted. */
  lemma {:induction false} FilterKeepsSorted<T(!new)>(s: seq<T>, p: T -> bool, le: (T, T) -> bool)
    requires Sorted(s, le)
    ensures Sorted(Filter(s, p), le)
  {
    if |s| > 0 {
      FilterKeepsSorted(s[1..], p, le);
      if p(s[0]) {
        var r := Filter(s, p);
        var t := Filter(s[1..], p);
        assert r == [s[0]] + t;
        forall i, j | 0 <= i < j < |r| ensures le(r[i], r[j]) {
          if i == 0 {
            assert r[j] == t[j - 1] && t[j - 1] in s[1..];
            var k :| 0 <= k < |s[1..]| && s[1..][k] == r[j];
            assert le(s[0], s[k + 1]);
          } else {
            assert r[i] == t[i - 1] && r[j] == t[j - 1];
          }
        }
      }
    }
  }
}

=== FILE: text.dfy ===
/** The JavaScript string operations the screens rely on: `toLowerCase`, `trim`,
    `includes`, `localeCompare` and `join`. Lower-casing is modelled on ASCII letters
    and `localeCompare` as code-point lexicographic order. */
module Text {
  import Sorting

  /** ASCII lower-casing of one character. */
  function Lower(c: char): char
  {
    if 'A' <= c <= 'Z' then (c as int + 32) as char else c
  }

  /** `s.toLowerCase()`. */
  function LowerStr(s: string): (r: string)
    ensures |r| == |s|
    ensures forall i :: 0 <= i < |s| ==> r[i] == Lower(s[i])
  {
    if |s| == 0 then "" else [Lower(s[0])] + LowerStr(s[1..])
  }

  /** Characters removed by `String.prototype.trim`: white space and line terminators
      as ECMAScript defines them. */
  predicate IsWhitespace(c: char)
  {
    var n := c as int;
    || n == 0x09 || n == 0x0A || n == 0x0B || n == 0x0C || n == 0x0D || n == 0x20
    || n == 0xA0 || n == 0x1680 || (0x2000 <= n <= 0x200A) || n == 0x2028 || n == 0x2029
    || n == 0x202F || n == 0x205F || n == 0x3000 || n == 0xFEFF
  }

  /** Leading white space removed. */
  function TrimStart(s: string): (r: string)
    ensures |r| <= |s| && r == s[|s| - |r|..]
    ensures |r| > 0 ==> !IsWhitespace(r[0])
    ensures forall i :: 0 <= i < |s| - |r| ==> IsWhitespace(s[i])
  {
    if |s| > 0 && IsWhitespace(s[0]) then
      var r := TrimStart(s[1..]);
      assert s[1..][|s| - 1 - |r|..] == s[|s| - |r|..];
      assert forall i :: 1 <= i < |s| - |r| ==> s[i] == s[1..][i - 1];
      r
    else s
  }

  /** Trailing white space removed. */
  function TrimEnd(s: string): (r: string)
    ensures |r| <= |s| && r == s[..|r|]
    ensures |r| > 0 ==> !IsWhitespace(r[|r| - 1])
    ensures forall i :: |r| <= i < |s| ==> IsWhitespace(s[i])
  {
    if |s| > 0 && IsWhitespace(s[|s| - 1]) then
      var r := TrimEnd(s[..|s| - 1]);
      assert s[..|s| - 1][..|r|] == s[..|r|];
      assert forall i :: |r| <= i < |s| - 1 ==> s[i] == s[..|s| - 1][i];
      r
    else s
  }

  /** `r` is the slice of `s` starting at `a` with only white space around it. */
  ghost predicate TrimmedAt(s: string, r: string, a: int)
  {
    && 0 <= a <= a + |r| <= |s| && r == s[a..a + |r|]
    && (forall i :: 0 <= i < a ==> IsWhitespace(s[i]))
    && (forall i :: a + |r| <= i < |s| ==> IsWhitespace(s[i]))
  }

  /** `s.trim()`: the slice of `s` left after removing white space at both ends. */
  function Trim(s: string): (r: string)
    ensures exists a :: TrimmedAt(s, r, a)
    ensures |r| > 0 ==> !IsWhitespace(r[0]) && !IsWhitespace(r[|r| - 1])
  {
    var t := TrimStart(s);
    var r := TrimEnd(t);
    assert TrimmedAt(s, r, |s| - |t|);
    r
  }

  /** `!s.trim()`: nothing but white space. */
  predicate IsBlank(s: string)
  {
    Trim(s) == ""
  }

  /** A string is blank exactly when every character is white space. */
  lemma BlankIffAllWhitespace(s: string)
    ensures IsBlank(s) <==> forall i :: 0 <= i < |s| ==> IsWhitespace(s[i])
  {
    if !IsBlank(s) {
      var r := Trim(s);
      var a :| TrimmedAt(s, r, a);
      assert s[a] == r[0];
    }
  }

  /** Trimming is idempotent: a trimmed string has nothing left to trim. */
  lemma TrimIdempotent(s: string)
    ensures Trim(Trim(s)) == Trim(s)
  {
    var r := Trim(s);
    NoEdgeWhitespaceTrimmed(r);
  }

  lemma NoEdgeWhitespaceTrimmed(r: string)
    requires |r| > 0 ==> !IsWhitespace(r[0]) && !IsWhitespace(r[|r| - 1])
    ensures Trim(r) == r
  {
    assert TrimStart(r) == r;
    assert TrimEnd(r) == r;
  }

  /** `needle` occurs in `hay` starting at index `i`. */
  ghost predicate OccursAt(hay: string, needle: string, i: int)
  {
    0 <= i && i + |needle| <= |hay| && hay[i..i + |needle|] == needle
  }

  /** `hay.includes(needle)`: `needle` occurs somewhere in `hay`; the empty string occurs everywhere. */
  function Contains(hay: string, needle: string): (r: bool)
    ensures r <==> exists i :: OccursAt(hay, needle, i)
    decreases |hay|
  {
    if needle <= hay then
      assert OccursAt(hay, needle, 0);
      true
    else if |hay| == 0 then
      assert forall i :: !OccursAt(hay, needle, i);
      false
    else
      var r := Contains(hay[1..], needle);
      assert r ==> exists i :: OccursAt(hay, needle, i) by {
        if r {
          var i :| OccursAt(hay[1..], needle, i);
          assert hay[1..][i..i + |needle|] == hay[i + 1..i + 1 + |needle|];
          assert OccursAt(hay, needle, i + 1);
        }
      }
      assert (exists i :: OccursAt(hay, needle, i)) ==> r by {
        assert !OccursAt(hay, needle, 0);
        if exists i :: OccursAt(hay, needle, i) {
          var i :| OccursAt(hay, needle, i);
          assert hay[1..][i - 1..i - 1 + |needle|] == hay[i..i + |needle|];
          assert OccursAt(hay[1..], needle, i - 1);
        }
      }
      r
  }

  /** Every string includes the empty string. */
  lemma ContainsEmpty(hay: string)
    ensures Contains(hay, "")
  {
    assert OccursAt(hay, "", 0);
  }

  /** The order `localeCompare` sorts by, modelled as lexicographic order on code points:
      `a` may come before `b`. */
  predicate StrLe(a: string, b: string)
  {
    if |a| == 0 then true
    else if |b| == 0 then false
    else a[0] < b[0] || (a[0] == b[0] && StrLe(a[1..], b[1..]))
  }

  lemma {:induction false} StrLeTotal(a: string, b: string)
    ensures StrLe(a, b) || StrLe(b, a)
  {
    if |a| > 0 && |b| > 0 && a[0] == b[0] {
      StrLeTotal(a[1..], b[1..]);
    }
  }

  lemma {:induction false} StrLeTransitive(a: string, b: string, c: string)
    requires StrLe(a, b) && StrLe(b, c)
    ensures StrLe(a, c)
  {
    if |a| > 0 && |b| > 0 && |c| > 0 && a[0] == b[0] && b[0] == c[0] {
      StrLeTransitive(a[1..], b[1..], c[1..]);
    }
  }

  /** Comparing records by a string field with `localeCompare` is a total preorder. */
  lemma StrLePreorderBy<T(!new)>(le: (T, T) -> bool, key: T -> string)
    requires forall x, y :: le(x, y) == StrLe(key(x), key(y))
    ensures Sorting.TotalPreorder(le)
  {
    forall x: T, y: T ensures le(x, y) || le(y, x) {
      StrLeTotal(key(x), key(y));
    }
    forall x: T, y: T, z: T | le(x, y) && le(y, z) ensures le(x, z) {
      StrLeTransitive(key(x), key(y), key(z));
    }
  }

  /** `xs.join(sep)`. */
  function Join(xs: seq<string>, sep: string): (r: string)
    ensures |xs| == 0 ==> r == ""
    ensures |xs| == 1 ==> r == xs[0]
    ensures |xs| > 0 ==> xs[0] <= r
  {
    if |xs| == 0 then ""
    else if |xs| == 1 then xs[0]
    else xs[0] + sep + Join(xs[1..], sep)
  }
}

=== FILE: wrappers.dfy ===
/** Optional values and success/failure results, standing in for JavaScript's
    `undefined`/`null` fields and for the screens' early `return` after an alert. */
module Wrappers {

  /** A field that may be absent from a stored JSON record. */
  datatype Option<+T> = None | Some(value: T) {

    /** The value, or `default` when absent (JavaScript's `x || default` for non-empty values). */
    function GetOr(default: T): T {
      match this
      case Some(v) => v
      case None => default
    }
  }

  /** The outcome of a save action: the list written back to storage, or the alert shown instead. */
  datatype Result<+R, +E> = Success(value: R) | Failure(error: E)
}
